=== FILE: README.md ===
# adl2pydm output handler, modelled in Dafny

adl2pydm translates MEDM `.adl` screens into PyDM `.ui` files, which are
Qt Designer XML. Its output handler (`src/adl2pydm/output_handler.py`)
takes a parsed screen and builds the XML tree. The pieces are:

- the `ui` root, with the title as its `class`;
- the `screen` form, holding its geometry, a colour style sheet and the
  window title;
- one `widget` element per MEDM block. The widget gets a name that is
  unique per suggested base, a class from the symbol table, its geometry,
  and whatever the block's handler writes: tool tip, `ca://` channel,
  alignment, brush and pen, rules, related display text and so on.
  Composites write their children inside their own widget;
- the `customwidgets` declarations, one per PyDM class, listed in the
  order each class was first used;
- the stacking-order trailer, sorted stably by order.

MEDM "dynamic attributes" become PyDM visibility rules. The calc
expression is rewritten literally (`A` becomes `ch[0]`, …, `#` becomes `!=`,
`||` becomes `|`), and macro parentheses `$(P)` become braces `${P}`.

The model is functional. The project does not use ElementTree's in-place
`SubElement`. It builds each child completely and then appends it. The
result is the same tree, because a parent only ever receives children at
its end, in call order. Every Python exception on the paths modelled here
becomes a `Failure` that aborts the document. Examples are a `KeyError` in
a lookup table, `"ca://" + None`, a `ValueError` from the name allocator,
and the `NameError` its message would actually raise at line 149. The
symbol tables (`adl_symbols.widgets`, `pydm_symbols.pydm_custom_widgets`)
are the `Engine.Tables` parameter. The handler table
`pydm_widget_handlers` is `Handlers.HandlerFor` / `Handlers.MapperOf`. The translator's own state, its `unique_widget_names` and `custom_widgets` (lines 104-105), is `Engine.State`. `Engine.WriteUi` takes it and, on success, returns it updated, because neither is reset between two `write_ui` calls on the same translator.

Modules:

| module | holds |
|---|---|
| `Results` | `Result`, `Option` |
| `Strings` | `str.replace`, `(`/`)` to `{`/`}`, `str(int)`/`int(str)`, `lstrip`, `os.path.split`/`splitext` |
| `Rules` | `interpretAdlDynamicAttribute` |
| `Xml` | the element tree and the `PYDM_Writer` helpers |
| `Properties` | geometry, tool tip, channel, `get_channel`, colour elements, alignment |
| `Styles` | the widget style sheet text and a reader for it |
| `Screens` | the parsed screen |
| `Mappers` | the rectangle and related display mappers |
| `Handlers` | the handler table and the remaining mappers |
| `Names` | `get_unique_widget_name` |
| `ZOrder` | the stacking-order sort |
| `Engine` | `write_block`, `write_customwidgets`, `write_ui` |

## Model

All sources are in `src/adl2pydm/output_handler.py`; the table gives the line ranges.

| member | source | states |
|---|---|---|
| Strings.Braces | src/adl2pydm/output_handler.py:160-168 | the macro rewrite keeps the length, maps `(` to `{` and `)` to `}` character by character, and leaves no parenthesis |
| Strings.ReplaceCharPointwise | src/adl2pydm/output_handler.py:208 | replacing one character by one character is a length-preserving character map; this is how `symbol.replace(" ", "_")` acts |
| Strings.ReplaceAllChars | src/adl2pydm/output_handler.py:79-80 | `str.replace` never invents characters: every output character comes from the input or from the replacement text |
| Strings.ReplaceCharRemoves | src/adl2pydm/output_handler.py:79-80 | after replacing a character by text that lacks it, the character is gone |
| Strings.NatRoundTrip | src/adl2pydm/output_handler.py:203-205 | the decimal text `str(n)` writes for a colour component reads back as `n` |
| Strings.IntRoundTrip | src/adl2pydm/output_handler.py:433-436 | the text `str(i)` writes for a possibly negative geometry number reads back as `i` |
| Strings.NatToStringInjective | src/adl2pydm/output_handler.py:146 | distinct numbers give distinct decimal texts, so distinct name suffixes differ |
| Strings.StemOfPath | src/adl2pydm/output_handler.py:172 | the fallback title `os.path.split(os.path.splitext(f)[0])[-1]` has no `/`, is a prefix of the file's base name, and is either all of it or it without its extension; whenever the base name has an extension to drop, it is dropped |
| Rules.MakeChannel | src/adl2pydm/output_handler.py:55-56 | a rule channel holds the braced address and triggers exactly when the raw address is non-empty |
| Rules.Collect | src/adl2pydm/output_handler.py:52-56 | channels are taken from `chan`, `chanB`, `chanC`, `chanD` in order, up to the first missing key, each read from its own key |
| Rules.ChannelsIffPrimary | src/adl2pydm/output_handler.py:52-54 | there are channels exactly when `chan` is present; without it `chanB`..`chanD` are ignored |
| Rules.VisibilityCalc | src/adl2pydm/output_handler.py:58-63 | the `vis` lookup fails exactly for a mode other than the three known ones (default "if not zero"); "if zero" gives ` == 0`, "if not zero" gives ` != 0`, and "calc" gives the `calc` entry, or nothing when there is none |
| Rules.SourceExpression | src/adl2pydm/output_handler.py:58-67 | the expression is the `calc` entry when there is one, otherwise `ch[0] == 0` / `ch[0] != 0`; it fails for an unknown mode, and when there is no calc and either no `chan` or mode "calc" |
| Rules.Interpret | src/adl2pydm/output_handler.py:37-84 | one rule `rule_0` on `Visible`, failing exactly when the source expression does, with a `channels` entry exactly when a channel was collected, and then equal to the collected channels |
| Rules.InterpretExpression | src/adl2pydm/output_handler.py:58-82 | the rule's expression is the rewritten `calc` when given, even alongside channels; otherwise it is the zero comparison, unchanged |
| Rules.RewriteRemovesPlaceholders | src/adl2pydm/output_handler.py:71-80 | after the exchanges no `A`..`D` or `#` is left, since no later replacement brings one back |
| Rules.InterpretNoPlaceholders | src/adl2pydm/output_handler.py:37-84 | a rule expression never contains a placeholder letter or `#` |
| Rules.RewriteIdentity | src/adl2pydm/output_handler.py:71-80 | text without `A`..`D`, `#` or a bar passes the rewrite unchanged |
| Rules.ExampleIfNotZero | src/adl2pydm/output_handler.py:37-84 | `{chan: "(P)", vis: "if not zero"}` gives one triggering channel `{P}` and `ch[0] != 0` |
| Rules.ExampleCalc | src/adl2pydm/output_handler.py:71-80 | `A#B\|\|C` becomes `ch[0]!=ch[1]\|ch[2]` |
| Rules.ExampleCalcWithChannel | src/adl2pydm/output_handler.py:37-84 | an explicit calc wins over synthesis while `chan` still supplies the channel |
| Rules.ExampleLowerCaseOperand | src/adl2pydm/output_handler.py:70 | lower-case operands are not rewritten (`a==0` stays), the gap the FIXME names |
| Rules.ExampleLiteralSubstitution | src/adl2pydm/output_handler.py:79-80 | substitution is literal: `ABS` becomes `ch[0]ch[1]S` |
| Xml.OpenTag | src/adl2pydm/output_handler.py:573-584 | a new element has `class` only for a non-empty class and `name` only for a non-empty name, and every extra attribute overrides them |
| Xml.WriteOpenTag | src/adl2pydm/output_handler.py:573-584 | a missing parent is refused; otherwise the parent gains exactly one new last child, the element `OpenTag` builds, and is otherwise unchanged |
| Xml.OpenProperty | src/adl2pydm/output_handler.py:550-554 | a `property` element named `name` carrying the extra attributes |
| Xml.Property | src/adl2pydm/output_handler.py:543-548 | a property holding one leaf of the given tag whose value reads back as given |
| Properties.PyDMProperty | src/adl2pydm/output_handler.py:543-548 | a `stdset="0"` property whose text reads back as given |
| Properties.GeometryProperty | src/adl2pydm/output_handler.py:428-436 | the geometry property reads back as the block's x, y, width and height |
| Properties.Tooltip | src/adl2pydm/output_handler.py:438-440 | a `toolTip` property whose text is the tip, and which has no text for a missing tip |
| Properties.ChannelProperty | src/adl2pydm/output_handler.py:395-398 | a `stdset="0"` `channel` property whose text is `ca://` followed by the PV, reading back as the PV |
| Properties.ScanFindsLast | src/adl2pydm/output_handler.py:162-165 | the key loop ends with the value of the last listed key present, or with its start value |
| Properties.GetChannel | src/adl2pydm/output_handler.py:160-168 | `None` exactly when none of `chan`, `rdbk`, `ctrl` is present; else the braced value of `ctrl`, then `rdbk`, then `chan`, in that precedence |
| Properties.RequiredChannel | src/adl2pydm/output_handler.py:251 | a mapper's PV exists exactly when its group is present, is a group, and holds a channel key; then it is that group's `get_channel` |
| Properties.ColorElements | src/adl2pydm/output_handler.py:200-205 | nothing for no colour, else one `color` element carrying the extra attributes |
| Properties.ColorRoundTrip | src/adl2pydm/output_handler.py:200-205 | the written colour element reads back as the colour |
| Properties.ColorElementsHold | src/adl2pydm/output_handler.py:200-205 | the written elements hold exactly the given optional colour |
| Properties.AlignmentRoundTrip | src/adl2pydm/output_handler.py:226-231 | the MEDM-name-to-Qt-flags table is invertible: the flags identify the alignment |
| Properties.AlignmentProperty | src/adl2pydm/output_handler.py:225-232 | succeeds exactly when `align` is absent or a known name; the `set` property's flags read back as that name, defaulting to "horiz. left" |
| Styles.StyleText | src/adl2pydm/output_handler.py:403-410 | the sheet starts with the `class#name` selector and reads back as the foreground and background colours given |
| Styles.StyleSheet | src/adl2pydm/output_handler.py:400-415 | fails exactly without `class`/`name` attributes; writes nothing exactly when both colours are missing, else one `styleSheet` property (`notr="true"`) that gives back both colours |
| Mappers.PenWidthText | src/adl2pydm/output_handler.py:328-332 | a solid brush keeps the width text (default `0`); an outline reads back as `max(1, width)`, so it is always at least 1, and fails on a non-numeric width |
| Mappers.WidthText | src/adl2pydm/output_handler.py:331-332 | `str(max(1, float(w)))` reads back as `max(1, w)` |
| Mappers.DynamicRules | src/adl2pydm/output_handler.py:334-339 | no `rules` property exactly for a missing or empty dynamic attribute; otherwise one `stdset="0"` `rules` property carrying the interpreted rules |
| Mappers.BrushProperty | src/adl2pydm/output_handler.py:311-316 | the `brush` property carries the brush style and holds the colour with `alpha="255"` |
| Mappers.RectangleProperties | src/adl2pydm/output_handler.py:307-339 | succeeds exactly when the basic attribute is a group, fill and line style are known, the outline width is numeric and the rules translate; then writes the parts for those settings |
| Mappers.RectangleOrder | src/adl2pydm/output_handler.py:307-339 | tool tip, brush, pen style, pen colour and pen width, in that order, then the rules |
| Mappers.RectangleColors | src/adl2pydm/output_handler.py:311-326 | brush and pen both carry the block's colour, the brush's made opaque |
| Mappers.RectangleRulesAndOutline | src/adl2pydm/output_handler.py:328-339 | there is a sixth (`rules`) element exactly when rules were written, and an outline's pen width reads back as at least 1 |
| Mappers.ExampleOutlineWidth | src/adl2pydm/output_handler.py:330-331 | an outline of width 0 gets pen width 1 |
| Mappers.RelatedDisplayProperties | src/adl2pydm/output_handler.py:341-348 | tool tip and text are both the caption (title, else name) stripped of leading dashes, plus `showIcon` false when there were dashes |
| Mappers.RelatedDisplayStrips | src/adl2pydm/output_handler.py:342-348 | the shown text is the caption minus exactly its leading dashes, and the icon is hidden exactly when some were removed |
| Handlers.HandlerFor | src/adl2pydm/output_handler.py:106-131 | any handler other than the default is the one registered for the symbol |
| Handlers.HandlerTable | src/adl2pydm/output_handler.py:106-131 | every registered symbol selects its own handler, and only unregistered symbols reach the default |
| Handlers.TipOnly | src/adl2pydm/output_handler.py:236-245 | the name-only mappers write exactly one tool tip and no channel |
| Handlers.ChannelThenTip | src/adl2pydm/output_handler.py:283-391 | menu (283-286), meter (297-300), text entry (365-368), valuator (382-386) and wheel switch (388-391): each succeeds exactly when its PV (`control`, or `monitor` for the meter) exists, and writes that PV as channel, then as tool tip |
| Handlers.ChoiceButtonProperties | src/adl2pydm/output_handler.py:250-253 | succeeds exactly when the `control` PV exists; channel and tool tip are that PV |
| Handlers.ImageProperties | src/adl2pydm/output_handler.py:272-275 | a `stdset="0"` `filename` property holding the image name (no text when absent) and the name as tool tip |
| Handlers.IndicatorProperties | src/adl2pydm/output_handler.py:277-281 | succeeds exactly when the `monitor` PV exists; it is the channel, the name is the tool tip and the title the text |
| Handlers.PressValue | src/adl2pydm/output_handler.py:293-295 | a `pressValue` property exactly when `press_msg` is present, holding it |
| Handlers.MessageButtonProperties | src/adl2pydm/output_handler.py:288-295 | succeeds exactly when the `control` PV exists; text, PV tool tip, channel, and the press value when given |
| Handlers.TextProperties | src/adl2pydm/output_handler.py:360-363 | succeeds exactly when the alignment does; the title is the text, the name the tool tip, with no channel |
| Handlers.TextUpdateProperties | src/adl2pydm/output_handler.py:370-380 | succeeds exactly when the `monitor` PV and alignment exist and the widget has class and name; tool tip "PV: " plus the PV, the channel, selectable text, and a style sheet exactly when a colour is given |
| Handlers.RectangleNames | src/adl2pydm/output_handler.py:307-308 | a rectangle's tool tip is its name and it has no channel |
| Handlers.RelatedDisplayNames | src/adl2pydm/output_handler.py:341-345 | a related display's tool tip is its stripped caption and it has no channel |
| Handlers.HandlerOutcome | src/adl2pydm/output_handler.py:236-391 | the mappers reading only title and name always succeed; a PV-bound mapper without a PV fails |
| Handlers.HandlerTip | src/adl2pydm/output_handler.py:236-391 | every mapper writes exactly one tool tip: the PV, "PV: " plus the PV, the stripped caption, "TBA widget: " plus the name, or the name |
| Handlers.HandlerChannel | src/adl2pydm/output_handler.py:236-391 | PV-bound mappers write exactly one channel, reading back as their group's PV; the others write none |
| Names.Allocate | src/adl2pydm/output_handler.py:133-158 | fails exactly when the suggestion is known and its suffixed candidate is itself a known base; a new base is returned unchanged, a known one suffixed with its issue count; only the suggestion's list grows, by the name |
| Names.AllocatePreservesWellFormed | src/adl2pydm/output_handler.py:142-156 | each base's list stays `base`, `base_1`, …, in issue order |
| Names.IssuedNamesDistinct | src/adl2pydm/output_handler.py:142-156 | names issued from one base are pairwise distinct |
| Names.AllocateFresh | src/adl2pydm/output_handler.py:144-156 | a repeated base gets a name not yet issued from it |
| Names.AllocateAllAppend | src/adl2pydm/output_handler.py:133-158 | allocating for `a + b` is allocating for `a`, then for `b` from the registry that leaves |
| Names.RepeatedAllocation | src/adl2pydm/output_handler.py:133-158 | `n` requests for one base from scratch always succeed with `base`, `base_1`, …, `base_{n-1}` |
| Names.ExampleThreeTexts | src/adl2pydm/output_handler.py:133-158 | three `text` widgets are named `text`, `text_1`, `text_2` |
| Names.ExampleCrossBaseDuplicate | src/adl2pydm/output_handler.py:144-153 | uniqueness is per base only: `text`, `text`, `text_1` yields `text_1` twice |
| Names.ExampleCollision | src/adl2pydm/output_handler.py:147-150 | the failure path is reachable: `text_1`, `text`, `text` fails on the third request |
| ZOrder.InsertPermutes | src/adl2pydm/output_handler.py:527-531 | each insertion step of the stable sort adds exactly the inserted entry |
| ZOrder.SortByOrderCorrect | src/adl2pydm/output_handler.py:527-531 | `sorted(…, key=order)` is ordered, a permutation, and stable: entries of equal order keep their recorded order |
| ZOrder.Trailer | src/adl2pydm/output_handler.py:531-534 | one `zorder` element per entry, with its text, in sorted order |
| Engine.WidgetName | src/adl2pydm/output_handler.py:208 | the base name is the symbol with each space replaced by `_`, same length, no space left |
| Engine.AddAllFirstUse | src/adl2pydm/output_handler.py:209-213 | the custom-widget list keeps its prefix, has no duplicates, contains exactly the old and recorded classes, and lists new classes in the order of their first use |
| Engine.AddAllAppend | src/adl2pydm/output_handler.py:209-213 | recording `a + b` is recording `a` and then `b` |
| Engine.Visited | src/adl2pydm/output_handler.py:260-270 | a block is visited first, before its composite children |
| Engine.WriteBlock | src/adl2pydm/output_handler.py:207-270 | a written block is a `widget`, and its name and class bookkeeping is that of the block and its composite descendants, in visiting order |
| Engine.WrittenBlock | src/adl2pydm/output_handler.py:207-223 | the widget has the class from the table and the name from its own allocation, its geometry first, then exactly the handler's properties, then one child widget per composite child |
| Engine.WriteBlocks | src/adl2pydm/output_handler.py:187-189 | writing a list of blocks does the bookkeeping of all visited blocks in order |
| Engine.WrittenForest | src/adl2pydm/output_handler.py:187-189 | one `widget` element per block, in order; element i has the class the table gives block i's symbol and block i's geometry as its first child |
| Engine.WalkAppend | src/adl2pydm/output_handler.py:207-213 | the bookkeeping of `a + b` is that of `a`, then of `b`; a failure in `a` aborts it |
| Engine.WalkMeaning | src/adl2pydm/output_handler.py:207-216 | the bookkeeping succeeds exactly when every visited symbol has a table entry and every name allocation succeeds, and it then ends with those allocations' registry and every class recorded in visiting order |
| Engine.WidgetProperties | src/adl2pydm/output_handler.py:220-223 | a widget's tool tip and channel are those its handler wrote; geometry and child widgets do not interfere |
| Engine.WrittenWidget | src/adl2pydm/output_handler.py:215-223 | each widget carries the tool tip and the channel its handler promises (`HandlerTip`, `HandlerChannel`) |
| Engine.Declaration | src/adl2pydm/output_handler.py:423-426 | a `customwidget` element reads back as the class, its base class and its header |
| Engine.CustomWidgetsElement | src/adl2pydm/output_handler.py:417-426 | one declaration per listed class with a table entry, in list order, each reading back as its entry |
| Engine.DeclaredMeaning | src/adl2pydm/output_handler.py:419-422 | declarations are exactly the entries of listed classes, never more than the list, and one per class in order when all are known |
| Engine.Title | src/adl2pydm/output_handler.py:172 | the screen title when non-empty, else the given file's base name without directory, and without its extension whenever it has one |
| Engine.Form | src/adl2pydm/output_handler.py:179 | the form is a `QWidget` named `screen` |
| Engine.FormStyle | src/adl2pydm/output_handler.py:400-415 | the form's style sheet is present exactly when the screen has a colour, and gives both back for `QWidget#screen` |
| Engine.WindowTitle | src/adl2pydm/output_handler.py:184-185 | a `windowTitle` property holding the title |
| Engine.FormElement | src/adl2pydm/output_handler.py:179-189 | the form holds the geometry, the style sheet, exactly one window title, then the top-level widgets, in that order |
| Engine.Document | src/adl2pydm/output_handler.py:176-193 | a `ui` root with version 4.0 holding the class title, the form and the declarations |
| Engine.WriteUi | src/adl2pydm/output_handler.py:170-198 | starting from the translator's current names and class list: fails when a visited symbol is unknown or a name allocation fails; otherwise returns the updated names and the class list extended by the newly used classes in first-use order, and a root holding the title, a form of exactly geometry, optional style sheet, window title and then the widgets of the top-level blocks in order (each with its block's class and geometry), and the declarations of every class in the updated list |

## Left out

- File I/O and serialisation are not modelled. That covers:
  - the output path `os.path.join(output_path, title + ".ui")`;
  - `openFile`'s environment-variable check, stylesheet file lookup and logging;
  - `closeFile`'s `tostring`, minidom pretty-printing and writing the file.
  The model ends with the element tree.
- `jsonEncode` is not modelled. The `rules` property carries the rule list itself (`Xml.Content.RulesJson`), not its JSON text.
- The stacking-order trailer is always empty. Nothing in the handler ever appends to `widget_stacking_info`, so `Engine.WriteUi` writes no `zorder`. The sort and the trailer are modelled on their own in `ZOrder`.
- Mappers.PenWidthText: only integer widths are modelled: an optionally signed run of decimal digits. Every other text that Python's `float` accepts fails in the model. That covers non-integers such as `2.5`, integer-valued forms such as `3.0`, surrounding blanks (`" 3"`), digit separators (`1_0`), exponents (`1e2`), and `inf` and `nan`. The decimal text of `str(float)` is written as the integer followed by `.0`. This is what Python writes for integers below 10^16, and larger widths are not modelled.
- A block contents value has two kinds, plain string or group. A value of the wrong kind is a failure. Python raises on most such paths, but not on all:
  - `write_block_image` with a group as image name: Python fails only when serialising, while the model fails in the mapper;
  - `press_msg` given as a group: same as for the image name.
- Engine.WriteUi: the contract states that an unknown symbol or a failed name allocation makes the call fail, but not that these are the only causes. The per-widget failure causes of the handlers are stated per mapper, in `Handlers.HandlerOutcome` and each mapper's contract, not lifted to the document.
- Engine.WriteUi: a failed call returns only the failure, not the state it leaves behind. In Python the names allocated and the classes recorded before the exception (lines 151-156 and 208-213) stay on the translator when line 216 or a handler raises. So after `[text, zzz]` fails on the unknown `zzz`, the next call on the same translator allocates `text_1`. The model promises nothing about calls that follow a failure.
- A block whose symbol has no entry in `adl_symbols.widgets` aborts the document. This happens at line 216 (`widget_info["pydm_widget"]` on `None`), even for symbols that would use the default handler. The model follows the code here, not a default shape.
- The name is allocated before the symbol table lookup, as in the code. When both fail, only the error message differs, and messages are not modelled.
- The `"chart"` check at lines 217-218 does nothing and is not modelled.
- `writeOpenTag`'s refusal of a missing parent (lines 573-584) is modelled in `Xml.WriteOpenTag`, but no modelled path reaches it. Every element the handler writes has a parent, so the engine builds elements directly with `Xml.OpenTag` and appends them.
- The `parent` argument of the mappers is never read and is left out. The composite handler writes its children into its own widget `qw`.
- `write_block_composite`'s children are written by symbol: the `composite` symbol is the one whose handler recurses.
- Error messages are not modelled. A failure carries a message string, but no contract speaks about it.
- `jsonDecode`, the commented-out handlers, `writeCloseProperty`, `writeCloseTag` and `writeMessage` do nothing the document depends on and are not modelled.
- Paths are POSIX paths. `Strings.BaseName` and `Strings.SplitExtRoot` split only at `/`. On Windows, `os.path` also splits at `\` and after a drive letter, and that is not modelled.
- The `.adl` parser that produces the `Screen`, and the contents of the two symbol tables, are not part of this model. The tables are a parameter.

=== FILE: engine.dfy ===
/** `Widget2Pydm.write_ui` and `write_block`: the walk over a screen's
    blocks that names each widget, records its custom widget class, picks
    its mapper from the handler table and nests the children of a
    composite inside it, and the `.ui` document assembled around it. */
module Engine {
  import opened Results
  import opened Strings
  import opened Screens
  import opened Xml
  import opened Properties
  import opened Styles
  import opened Names
  import opened Handlers
  import opened ZOrder

  /** An entry of `pydm_symbols.pydm_custom_widgets`. */
  datatype CustomWidget = CustomWidget(cls: string, base: string, header: string)

  /** The two symbol tables the translator consults: the PyDM class of each
      MEDM symbol (`adl_symbols.widgets[symbol]["pydm_widget"]`) and the
      declaration of each custom widget class. */
  datatype Tables = Tables(widgets: map<string, string>, customWidgets: map<string, CustomWidget>)

  /** What `write_block` accumulates across calls: the name registry and
      the custom widget classes in first-use order. */
  datatype State = State(names: Registry, custom: seq<string>)

  /** The base name a block asks for: its symbol with every space replaced
      by an underscore. */
  function WidgetName(symbol: string): (r: string)
    ensures |r| == |symbol| && ' ' !in r
    ensures forall i :: 0 <= i < |symbol| ==> r[i] == (if symbol[i] == ' ' then '_' else symbol[i])
  {
    ReplaceCharPointwise(symbol, ' ', '_');
    assert " " == [' '] && "_" == ['_'];
    ReplaceAll(symbol, " ", "_")
  }

  // ---------------------------------------------------------------------
  // The custom widget list

  predicate NoDuplicates(s: seq<string>) {
    forall i, j :: 0 <= i < j < |s| ==> s[i] != s[j]
  }

  /** `if cls not in self.custom_widgets: self.custom_widgets.append(cls)`. */
  function AddCustom(custom: seq<string>, cls: string): seq<string> {
    if cls in custom then custom else custom + [cls]
  }

  /** The list after recording each class of `classes` in turn. */
  function AddAll(custom: seq<string>, classes: seq<string>): seq<string>
    decreases |classes|
  {
    if |classes| == 0 then custom else AddAll(AddCustom(custom, classes[0]), classes[1..])
  }

  /** The position of the first occurrence of `x` in `s`. */
  function FirstIndex(s: seq<string>, x: string): (i: nat)
    requires x in s
    ensures i < |s| && s[i] == x && x !in s[..i]
  {
    if s[0] == x then 0
    else
      var j := FirstIndex(s[1..], x);
      assert s[..j + 1] == [s[0]] + s[1..][..j];
      j + 1
  }

  /** Recording a sequence of classes keeps the list free of duplicates,
      keeps what was there, adds exactly the classes not yet listed, and
      lists the new ones in the order of their first use. */
  lemma {:induction false} AddAllFirstUse(custom: seq<string>, classes: seq<string>)
    requires NoDuplicates(custom)
    ensures var r := AddAll(custom, classes);
            && |custom| <= |r| && r[..|custom|] == custom
            && NoDuplicates(r)
            && (forall c :: c in r <==> c in custom || c in classes)
            && (forall k :: |custom| <= k < |r| ==> r[k] in classes && r[k] !in custom)
    ensures var r := AddAll(custom, classes);
            forall i, j :: |custom| <= i < j < |r| ==>
              r[i] in classes && r[j] in classes && FirstIndex(classes, r[i]) < FirstIndex(classes, r[j])
    decreases |classes|
  {
    if |classes| > 0 {
      var c0, rest := classes[0], classes[1..];
      var next := AddCustom(custom, c0);
      assert NoDuplicates(next);
      AddAllFirstUse(next, rest);
      var r := AddAll(custom, classes);
      assert r == AddAll(next, rest);
      assert r[..|custom|] == next[..|custom|];
      forall c ensures c in r <==> c in custom || c in classes {
        assert c in classes <==> c == c0 || c in rest;
      }
      // Where `c0` sits in the result: in the old list, or first among the new.
      var p := if c0 in custom then FirstIndex(custom, c0) else |custom|;
      assert p < |next| && r[p] == next[p] == c0;
      forall i, j | |custom| <= i < j < |r|
        ensures r[i] in classes && r[j] in classes && FirstIndex(classes, r[i]) < FirstIndex(classes, r[j])
      {
        assert r[j] != c0 && j >= |next|;
        if i >= |next| {
          assert r[i] != c0;
        }
        FirstUsePair(classes, r[i], r[j]);
      }
    }
  }

  /** The order of first use in `classes`, from the order of first use in
      its tail. */
  lemma FirstUsePair(classes: seq<string>, x: string, y: string)
    requires |classes| > 0 && y in classes[1..] && y != classes[0]
    requires x == classes[0] || (x in classes[1..] && x != classes[0]
                                 && FirstIndex(classes[1..], x) < FirstIndex(classes[1..], y))
    ensures x in classes && y in classes && FirstIndex(classes, x) < FirstIndex(classes, y)
  {
    assert classes == [classes[0]] + classes[1..];
  }

  /** Recording `a + b` is recording `a` and then `b`. */
  lemma {:induction false} AddAllAppend(custom: seq<string>, a: seq<string>, b: seq<string>)
    ensures AddAll(custom, a + b) == AddAll(AddAll(custom, a), b)
    decreases |a|
  {
    if |a| == 0 {
      assert a + b == b;
    } else {
      assert (a + b)[0] == a[0] && (a + b)[1..] == a[1..] + b;
      AddAllAppend(AddCustom(custom, a[0]), a[1..], b);
    }
  }

  // ---------------------------------------------------------------------
  // The document walk

  /** The symbol whose handler, `write_block_composite`, writes the
      block's children into its widget. */
  const CompositeSymbol: string := "composite"

  /** The blocks `write_block` visits from `b`, in visiting order: `b`
      itself, then, for a composite, the blocks of its children. */
  function Visited(b: Block): (r: seq<Block>)
    ensures |r| >= 1 && r[0] == b
    decreases BlockSize(b), 0
  {
    [b] + (if b.symbol == CompositeSymbol then VisitedAll(b.widgets) else [])
  }

  function VisitedAll(bs: seq<Block>): (r: seq<Block>)
    ensures |r| >= |bs|
    decreases ForestSize(bs), 1
  {
    if |bs| == 0 then [] else Visited(bs[0]) + VisitedAll(bs[1..])
  }

  /** The base name each visited block asks for. */
  function Suggestions(vs: seq<Block>): (r: seq<string>)
    ensures |r| == |vs| && forall i :: 0 <= i < |vs| ==> r[i] == WidgetName(vs[i].symbol)
  {
    seq(|vs|, i requires 0 <= i < |vs| => WidgetName(vs[i].symbol))
  }

  /** Every visited symbol has an entry in the widget table. */
  predicate AllKnown(t: Tables, vs: seq<Block>) {
    forall i :: 0 <= i < |vs| ==> vs[i].symbol in t.widgets
  }

  /** The PyDM class of each visited block. */
  function Classes(t: Tables, vs: seq<Block>): (r: seq<string>)
    requires AllKnown(t, vs)
    ensures |r| == |vs| && forall i :: 0 <= i < |vs| ==> r[i] == t.widgets[vs[i].symbol]
  {
    seq(|vs|, i requires 0 <= i < |vs| => t.widgets[vs[i].symbol])
  }

  /** The element `write_block` opens for a widget of class `cls` named `nm`. */
  function Frame(cls: string, nm: string): (qw: Element)
    ensures qw.tag == "widget" && qw.children == []
    ensures Attribute(qw, "class") == (if |cls| > 0 then Some(cls) else None)
    ensures Attribute(qw, "name") == (if |nm| > 0 then Some(nm) else None)
  {
    OpenTag("widget", cls, nm, map[])
  }

  /** The bookkeeping of writing the visited blocks `vs` from state `st`,
      one block at a time: each block's symbol must have a table entry and
      its name allocation must succeed; each allocation extends the
      registry and each block's class is recorded. `None` when a block
      aborts the document. */
  function Walk(t: Tables, st: State, vs: seq<Block>): Option<State>
    decreases |vs|
  {
    if |vs| == 0 then Some(st)
    else if vs[0].symbol !in t.widgets then None
    else match Allocate(st.names, WidgetName(vs[0].symbol))
      case Failure(_) => None
      case Success((_, names1)) =>
        Walk(t, State(names1, AddCustom(st.custom, t.widgets[vs[0].symbol])), vs[1..])
  }

  /** `write_block`: allocate the widget's name, look up its class (a block
      whose symbol has no table entry aborts the document), record the class,
      open the widget, write its geometry and then whatever its handler
      writes, the handler of a composite then writing the children into it.
      The handler table is a parameter, looked up by symbol; `WriteUi`
      passes the translator's. */
  function WriteBlock(t: Tables, handlers: string -> Mapper, st: State, b: Block): (r: Result<(Element, State)>)
    ensures r.Success? ==> Walk(t, st, Visited(b)) == Some(r.value.1) && r.value.0.tag == "widget"
    decreases BlockSize(b), 0
  {
    var (nm, names1) :- Allocate(st.names, WidgetName(b.symbol));
    if b.symbol !in t.widgets then Failure("no widget table entry for symbol " + b.symbol)
    else
      var cls := t.widgets[b.symbol];
      var st1 := State(names1, AddCustom(st.custom, cls));
      var qw := Frame(cls, nm);
      var props :- handlers(b.symbol)(b, nm, qw);
      var head := [GeometryProperty(b.geometry)] + props;
      if b.symbol == CompositeSymbol then
        var (kids, st2) :- WriteBlocks(t, handlers, st1, b.widgets);
        WalkComposite(t, st, b, nm, names1, st2);
        Success((qw.(children := head + kids), st2))
      else
        WalkLeaf(t, st, b, nm, names1);
        Success((qw.(children := head), st1))
  }

  /** A composite's bookkeeping is its own, then its children's. */
  lemma WalkComposite(t: Tables, st: State, b: Block, nm: string, names1: Registry, st': State)
    requires b.symbol == CompositeSymbol
    requires Allocate(st.names, WidgetName(b.symbol)) == Success((nm, names1))
    requires b.symbol in t.widgets
    requires Walk(t, State(names1, AddCustom(st.custom, t.widgets[b.symbol])), VisitedAll(b.widgets)) == Some(st')
    ensures Walk(t, st, Visited(b)) == Some(st')
  {
    var vs := Visited(b);
    assert vs[0] == b && vs[1..] == VisitedAll(b.widgets);
  }

  /** Any other block's bookkeeping is its own alone. */
  lemma WalkLeaf(t: Tables, st: State, b: Block, nm: string, names1: Registry)
    requires b.symbol != CompositeSymbol
    requires Allocate(st.names, WidgetName(b.symbol)) == Success((nm, names1))
    requires b.symbol in t.widgets
    ensures Walk(t, st, Visited(b)) == Some(State(names1, AddCustom(st.custom, t.widgets[b.symbol])))
  {
    var vs := Visited(b);
    assert vs[0] == b && vs[1..] == [];
  }

  /** The widget `write_block` writes: the element it opened, named by the
      block's own allocation and classed from the table, holding the
      geometry, then what the block's handler writes, then, for a
      composite, one child widget per child block. */
  lemma WrittenBlock(t: Tables, handlers: string -> Mapper, st: State, b: Block)
    requires WriteBlock(t, handlers, st, b).Success?
    ensures Allocate(st.names, WidgetName(b.symbol)).Success? && b.symbol in t.widgets
    ensures var e := WriteBlock(t, handlers, st, b).value.0;
            var nm := Allocate(st.names, WidgetName(b.symbol)).value.0;
            var qw := Frame(t.widgets[b.symbol], nm);
            var props := handlers(b.symbol)(b, nm, qw);
            && e.attrs == qw.attrs && e.text.None?
            && |e.children| >= 1 && ReadGeometry(e.children[0]) == Some(b.geometry)
            && PropertyName(e.children[0]) == Some("geometry")
            && props.Success?
            && WidgetBody(e.children[1..], props.value, if b.symbol == CompositeSymbol then |b.widgets| else 0)
  {
    var (nm, names1) := Allocate(st.names, WidgetName(b.symbol)).value;
    var qw := Frame(t.widgets[b.symbol], nm);
    var props := handlers(b.symbol)(b, nm, qw).value;
    var head := [GeometryProperty(b.geometry)] + props;
    if b.symbol == CompositeSymbol {
      var st1 := State(names1, AddCustom(st.custom, t.widgets[b.symbol]));
      var kids := WriteBlocks(t, handlers, st1, b.widgets).value.0;
      ForestTags(t, handlers, st1, b.widgets);
      WidgetBodyOf(head, kids);
    } else {
      WidgetBodyOf(head, []);
    }
  }

  /** The children after the geometry: the handler's properties, then
      `kids` child widgets. */
  predicate WidgetBody(rest: seq<Element>, props: seq<Element>, kids: nat) {
    && |rest| == |props| + kids
    && rest[..|props|] == props
    && forall i :: |props| <= i < |rest| ==> rest[i].tag == "widget"
  }

  lemma WidgetBodyOf(head: seq<Element>, kids: seq<Element>)
    requires |head| >= 1 && forall i :: 0 <= i < |kids| ==> kids[i].tag == "widget"
    ensures WidgetBody((head + kids)[1..], head[1..], |kids|)
  {
    assert (head + kids)[1..] == head[1..] + kids;
  }

  lemma SuggestionsCons(b: Block, rest: seq<Block>)
    ensures Suggestions([b] + rest)[0] == WidgetName(b.symbol)
    ensures Suggestions([b] + rest)[1..] == Suggestions(rest)
  {
  }

  lemma ClassesCons(t: Tables, b: Block, rest: seq<Block>)
    requires b.symbol in t.widgets && AllKnown(t, rest)
    ensures AllKnown(t, [b] + rest)
    ensures Classes(t, [b] + rest)[0] == t.widgets[b.symbol]
    ensures Classes(t, [b] + rest)[1..] == Classes(t, rest)
  {
  }

  /** `for widget in widgets: self.write_block(parent, widget)`, the
      elements in order. */
  function WriteBlocks(t: Tables, handlers: string -> Mapper, st: State, bs: seq<Block>)
    : (r: Result<(seq<Element>, State)>)
    ensures r.Success? ==> Walk(t, st, VisitedAll(bs)) == Some(r.value.1)
    decreases ForestSize(bs), 1
  {
    if |bs| == 0 then
      Success(([], st))
    else
      var (e, st1) :- WriteBlock(t, handlers, st, bs[0]);
      var (es, st2) :- WriteBlocks(t, handlers, st1, bs[1..]);
      WalkForest(t, st, bs, st1, st2);
      Success(([e] + es, st2))
  }

  /** `write_block` writes one widget per block of the forest. */
  lemma {:induction false} ForestTags(t: Tables, handlers: string -> Mapper, st: State, bs: seq<Block>)
    requires WriteBlocks(t, handlers, st, bs).Success?
    ensures var es := WriteBlocks(t, handlers, st, bs).value.0;
            |es| == |bs| && forall i :: 0 <= i < |es| ==> es[i].tag == "widget"
    decreases |bs|
  {
    if |bs| > 0 {
      var (e, st1) := WriteBlock(t, handlers, st, bs[0]).value;
      var es := WriteBlocks(t, handlers, st1, bs[1..]).value.0;
      assert WriteBlocks(t, handlers, st, bs).value.0 == [e] + es;
      ForestTags(t, handlers, st1, bs[1..]);
      WidgetsCons(e, es);
    }
  }

  /** `e` is the widget written for block `b`: a `widget` of the class the
      table gives `b`'s symbol, whose first child is `b`'s geometry. */
  predicate WidgetFor(t: Tables, e: Element, b: Block) {
    && e.tag == "widget"
    && b.symbol in t.widgets
    && Attribute(e, "class") == (if |t.widgets[b.symbol]| > 0 then Some(t.widgets[b.symbol]) else None)
    && |e.children| >= 1
    && ReadGeometry(e.children[0]) == Some(b.geometry)
  }

  lemma WrittenWidgetFor(t: Tables, handlers: string -> Mapper, st: State, b: Block)
    requires WriteBlock(t, handlers, st, b).Success?
    ensures WidgetFor(t, WriteBlock(t, handlers, st, b).value.0, b)
  {
    WrittenBlock(t, handlers, st, b);
  }

  /** The widgets written for a forest are, position by position, those of
      its blocks. */
  lemma {:induction false} WrittenForest(t: Tables, handlers: string -> Mapper, st: State, bs: seq<Block>)
    requires WriteBlocks(t, handlers, st, bs).Success?
    ensures var es := WriteBlocks(t, handlers, st, bs).value.0;
            |es| == |bs| && forall i :: 0 <= i < |bs| ==> WidgetFor(t, es[i], bs[i])
    decreases |bs|
  {
    if |bs| > 0 {
      var (e, st1) := WriteBlock(t, handlers, st, bs[0]).value;
      var es := WriteBlocks(t, handlers, st1, bs[1..]).value.0;
      assert WriteBlocks(t, handlers, st, bs).value.0 == [e] + es;
      WrittenWidgetFor(t, handlers, st, bs[0]);
      WrittenForest(t, handlers, st1, bs[1..]);
      WidgetsForCons(t, e, es, bs);
    }
  }

  lemma WidgetsForCons(t: Tables, e: Element, es: seq<Element>, bs: seq<Block>)
    requires |bs| > 0 && |es| == |bs| - 1 && WidgetFor(t, e, bs[0])
    requires forall i :: 0 <= i < |es| ==> WidgetFor(t, es[i], bs[1..][i])
    ensures forall i :: 0 <= i < |bs| ==> WidgetFor(t, ([e] + es)[i], bs[i])
  {
    forall i | 0 < i < |bs| ensures WidgetFor(t, ([e] + es)[i], bs[i]) {
      assert ([e] + es)[i] == es[i - 1] && bs[i] == bs[1..][i - 1];
    }
  }

  lemma WidgetsCons(e: Element, es: seq<Element>)
    requires e.tag == "widget" && forall i :: 0 <= i < |es| ==> es[i].tag == "widget"
    ensures forall i :: 0 <= i < |[e] + es| ==> ([e] + es)[i].tag == "widget"
  {
  }

  /** A forest's bookkeeping is its first tree's, then the rest's. */
  lemma WalkForest(t: Tables, st: State, bs: seq<Block>, st1: State, st2: State)
    requires |bs| > 0
    requires Walk(t, st, Visited(bs[0])) == Some(st1) && Walk(t, st1, VisitedAll(bs[1..])) == Some(st2)
    ensures Walk(t, st, VisitedAll(bs)) == Some(st2)
  {
    WalkAppend(t, st, Visited(bs[0]), VisitedAll(bs[1..]));
  }

  /** Walking `a + b` is walking `a` and then `b`. */
  lemma {:induction false} WalkAppend(t: Tables, st: State, a: seq<Block>, b: seq<Block>)
    ensures Walk(t, st, a).None? ==> Walk(t, st, a + b).None?
    ensures Walk(t, st, a).Some? ==> Walk(t, st, a + b) == Walk(t, Walk(t, st, a).value, b)
    decreases |a|
  {
    if |a| == 0 {
      assert a + b == b;
    } else {
      assert (a + b)[0] == a[0] && (a + b)[1..] == a[1..] + b;
      if a[0].symbol in t.widgets && Allocate(st.names, WidgetName(a[0].symbol)).Success? {
        var names1 := Allocate(st.names, WidgetName(a[0].symbol)).value.1;
        WalkAppend(t, State(names1, AddCustom(st.custom, t.widgets[a[0].symbol])), a[1..], b);
      }
    }
  }

  /** The walk succeeds exactly when every visited symbol is in the table
      and allocating all their names succeeds; it then ends with the
      registry those allocations leave and the custom list that recording
      all their classes gives. */
  lemma {:induction false} WalkMeaning(t: Tables, st: State, vs: seq<Block>)
    ensures Walk(t, st, vs).Some? <==> AllKnown(t, vs) && AllocateAll(st.names, Suggestions(vs)).Success?
    ensures Walk(t, st, vs).Some? ==>
              Walk(t, st, vs).value
              == State(AllocateAll(st.names, Suggestions(vs)).value.1, AddAll(st.custom, Classes(t, vs)))
    decreases |vs|
  {
    if |vs| > 0 {
      var b, rest := vs[0], vs[1..];
      assert vs == [b] + rest;
      SuggestionsCons(b, rest);
      var r := Allocate(st.names, WidgetName(b.symbol));
      if b.symbol in t.widgets && r.Success? {
        var (nm, names1) := r.value;
        var st1 := State(names1, AddCustom(st.custom, t.widgets[b.symbol]));
        WalkMeaning(t, st1, rest);
        assert AllKnown(t, vs) <==> AllKnown(t, rest);
        if AllKnown(t, rest) {
          ClassesCons(t, b, rest);
        }
        if AllocateAll(names1, Suggestions(rest)).Success? {
          var (more, reg2) := AllocateAll(names1, Suggestions(rest)).value;
          AllocateAllCons(st.names, Suggestions(vs), nm, names1, more, reg2);
        }
      } else if b.symbol !in t.widgets {
        assert !AllKnown(t, vs);
      }
    }
  }

  // ---------------------------------------------------------------------
  // What a written widget says

  /** Children that are not properties named `name` around `es` do not
      change which one `Unique` finds. */
  lemma UniqueAmong(pre: seq<Element>, es: seq<Element>, post: seq<Element>, name: string)
    requires NoneNamed(pre, name) && NoneNamed(post, name)
    ensures Unique(pre + es + post, name) == Unique(es, name)
  {
    PropertiesNamedAppend(pre + es, post, name);
    PropertiesNamedAppend(pre, es, name);
    PropertiesNamedNone(pre, name);
    PropertiesNamedNone(post, name);
  }

  /** The translator's handler table, looked up by symbol, with the
      default handler for a symbol it does not list. */
  function Dispatch(symbol: string): Mapper {
    MapperOf(HandlerFor(symbol))
  }

  /** A written widget's tool tip and channel are those of its
      handler's properties: the geometry before them and the child widgets
      after them are not tool tips or channels. */
  lemma WidgetProperties(t: Tables, handlers: string -> Mapper, st: State, b: Block)
    requires WriteBlock(t, handlers, st, b).Success?
    ensures Allocate(st.names, WidgetName(b.symbol)).Success? && b.symbol in t.widgets
    ensures var e := WriteBlock(t, handlers, st, b).value.0;
            var nm := Allocate(st.names, WidgetName(b.symbol)).value.0;
            var qw := Frame(t.widgets[b.symbol], nm);
            && handlers(b.symbol)(b, nm, qw).Success?
            && TipText(e.children) == TipText(handlers(b.symbol)(b, nm, qw).value)
            && ChannelOf(e.children) == ChannelOf(handlers(b.symbol)(b, nm, qw).value)
  {
    WrittenBlock(t, handlers, st, b);
    var e := WriteBlock(t, handlers, st, b).value.0;
    var nm := Allocate(st.names, WidgetName(b.symbol)).value.0;
    var qw := Frame(t.widgets[b.symbol], nm);
    var props := handlers(b.symbol)(b, nm, qw).value;
    BodyProperties(e.children, props, if b.symbol == CompositeSymbol then |b.widgets| else 0);
  }

  lemma BodyProperties(children: seq<Element>, props: seq<Element>, kids: nat)
    requires |children| >= 1 && PropertyName(children[0]) == Some("geometry")
    requires WidgetBody(children[1..], props, kids)
    ensures TipText(children) == TipText(props) && ChannelOf(children) == ChannelOf(props)
  {
    var pre, post := children[..1], children[1 + |props|..];
    assert children == pre + props + post;
    assert NoneNamed(pre, "toolTip") && NoneNamed(pre, "channel");
    assert forall i :: 0 <= i < |post| ==> post[i] == children[1..][|props| + i];
    UniqueAmong(pre, props, post, "toolTip");
    UniqueAmong(pre, props, post, "channel");
  }

  /** Every widget the translator writes carries the tool tip and the
      channel its handler promises. */
  lemma WrittenWidget(t: Tables, st: State, b: Block)
    requires WriteBlock(t, Dispatch, st, b).Success?
    ensures Allocate(st.names, WidgetName(b.symbol)).Success?
    ensures var e := WriteBlock(t, Dispatch, st, b).value.0;
            var nm := Allocate(st.names, WidgetName(b.symbol)).value.0;
            && TipText(e.children) == Some(ExpectedTip(HandlerFor(b.symbol), b, nm))
            && ChannelOf(e.children) == ChannelFor(HandlerFor(b.symbol), b)
  {
    WidgetProperties(t, Dispatch, st, b);
    var nm := Allocate(st.names, WidgetName(b.symbol)).value.0;
    var qw := Frame(t.widgets[b.symbol], nm);
    HandlerTip(HandlerFor(b.symbol), b, nm, qw);
    HandlerChannel(HandlerFor(b.symbol), b, nm, qw);
  }

  // ---------------------------------------------------------------------
  // The custom widget declarations

  /** The `customwidget` element `write_customwidgets` writes for one table
      entry: its class, the class it extends and its header. */
  function Declaration(w: CustomWidget): (e: Element)
    ensures e.tag == "customwidget" && ReadDeclaration(e) == Some(w)
  {
    OpenTag("customwidget", "", "", map[]).(children :=
      [Leaf("class", PlainText(w.cls)), Leaf("extends", PlainText(w.base)), Leaf("header", PlainText(w.header))])
  }

  /** The plain text of a leaf with tag `tag`. */
  function LeafText(e: Element, tag: string): Option<string> {
    if e.tag == tag && e.text.Some? && e.text.value.Plain? then Some(e.text.value.text) else None
  }

  function ReadDeclaration(e: Element): Option<CustomWidget> {
    if e.tag == "customwidget" && |e.children| == 3 then
      var cls :- LeafText(e.children[0], "class");
      var base :- LeafText(e.children[1], "extends");
      var header :- LeafText(e.children[2], "header");
      Some(CustomWidget(cls, base, header))
    else None
  }

  /** The table entries of the listed classes, in list order; a class
      without an entry is skipped. */
  function Declared(t: Tables, custom: seq<string>): seq<CustomWidget>
    decreases |custom|
  {
    if |custom| == 0 then []
    else (if custom[0] in t.customWidgets then [t.customWidgets[custom[0]]] else []) + Declared(t, custom[1..])
  }

  /** `write_customwidgets`: one declaration per listed class that has a
      table entry, in list order. */
  function CustomWidgetsElement(t: Tables, custom: seq<string>): (e: Element)
    ensures e.tag == "customwidgets" && |e.children| == |Declared(t, custom)|
    ensures forall i :: 0 <= i < |e.children| ==> ReadDeclaration(e.children[i]) == Some(Declared(t, custom)[i])
  {
    var d := Declared(t, custom);
    OpenTag("customwidgets", "", "", map[]).(children := seq(|d|, i requires 0 <= i < |d| => Declaration(d[i])))
  }

  /** A declaration is written exactly for the entries of listed classes,
      never more than one per class; when every listed class has an entry,
      each gets its declaration, in list order. */
  lemma {:induction false} DeclaredMeaning(t: Tables, custom: seq<string>)
    ensures |Declared(t, custom)| <= |custom|
    ensures forall w :: w in Declared(t, custom) <==>
              exists i :: 0 <= i < |custom| && custom[i] in t.customWidgets && t.customWidgets[custom[i]] == w
    ensures (forall i :: 0 <= i < |custom| ==> custom[i] in t.customWidgets) ==>
              |Declared(t, custom)| == |custom|
              && forall i :: 0 <= i < |custom| ==> Declared(t, custom)[i] == t.customWidgets[custom[i]]
    decreases |custom|
  {
    if |custom| > 0 {
      var c, rest := custom[0], custom[1..];
      DeclaredMeaning(t, rest);
      var d := Declared(t, custom);
      forall w ensures w in d <==>
          exists i :: 0 <= i < |custom| && custom[i] in t.customWidgets && t.customWidgets[custom[i]] == w
      {
        if w in d && !(c in t.customWidgets && t.customWidgets[c] == w) {
          var j :| 0 <= j < |rest| && rest[j] in t.customWidgets && t.customWidgets[rest[j]] == w;
          assert custom[j + 1] == rest[j];
        }
        if exists i :: 0 <= i < |custom| && custom[i] in t.customWidgets && t.customWidgets[custom[i]] == w {
          var i :| 0 <= i < |custom| && custom[i] in t.customWidgets && t.customWidgets[custom[i]] == w;
          if i > 0 {
            assert rest[i - 1] == custom[i];
          }
        }
      }
      if forall i :: 0 <= i < |custom| ==> custom[i] in t.customWidgets {
        assert forall i :: 0 <= i < |rest| ==> rest[i] == custom[i + 1];
      }
    }
  }

  // ---------------------------------------------------------------------
  // The document

  /** The screen's title, or else the file name it was read from without
      directory and extension. */
  function Title(s: Screen): (r: string)
    ensures |s.title| > 0 ==> r == s.title
    ensures |s.title| == 0 ==>
              && '/' !in r
              && StartsWith(BaseName(s.givenFilename), r)
              && (r == BaseName(s.givenFilename) || DropsExtension(BaseName(s.givenFilename), |r|))
    ensures |s.title| == 0 && (exists n: nat :: DropsExtension(BaseName(s.givenFilename), n)) ==>
              DropsExtension(BaseName(s.givenFilename), |r|)
  {
    if |s.title| > 0 then s.title
    else
      StemOfPath(s.givenFilename);
      Stem(s.givenFilename)
  }

  /** The form widget every screen is written into. */
  function Form(): (qw: Element)
    ensures qw.tag == "widget" && qw.children == []
    ensures Attribute(qw, "class") == Some("QWidget") && Attribute(qw, "name") == Some("screen")
  {
    Frame("QWidget", "screen")
  }

  /** `write_colors_style(form, screen)`: the form's style sheet, present
      only when the screen has a colour, and giving back both colours. */
  function FormStyle(s: Screen): (r: seq<Element>)
    ensures |r| == (if s.color.None? && s.backgroundColor.None? then 0 else 1)
    ensures |r| == 1 ==>
              && PropertyName(r[0]) == Some("styleSheet")
              && PropertyText(r[0]).Some?
              && ReadStyle("QWidget", "screen", PropertyText(r[0]).value) == Some((s.color, s.backgroundColor))
  {
    var form := Form();
    assert form.attrs["class"] == "QWidget" && form.attrs["name"] == "screen";
    StyleSheet(form, s.color, s.backgroundColor).value
  }

  /** `writeOpenProperty(form, "windowTitle")` holding the title. */
  function WindowTitle(title: string): (e: Element)
    ensures PropertyName(e) == Some("windowTitle") && PropertyText(e) == Some(title)
  {
    OpenProperty("windowTitle", map[], [Leaf("string", PlainText(title))])
  }

  /** The form as `write_ui` fills it: its geometry, the style sheet, the
      window title, then the top-level widgets. */
  function FormElement(geometry: Element, style: seq<Element>, title: string, widgets: seq<Element>)
    : (e: Element)
    requires PropertyName(geometry) == Some("geometry")
    requires |style| <= 1 && (|style| == 1 ==> PropertyName(style[0]) == Some("styleSheet"))
    requires forall i :: 0 <= i < |widgets| ==> widgets[i].tag == "widget"
    ensures e.tag == "widget"
    ensures Attribute(e, "class") == Some("QWidget") && Attribute(e, "name") == Some("screen")
    ensures |e.children| == 2 + |style| + |widgets|
    ensures e.children[0] == geometry
    ensures e.children[1..1 + |style|] == style
    ensures TextOf(e.children, "windowTitle") == Some(title)
    ensures e.children[|e.children| - |widgets|..] == widgets
  {
    var body := [geometry] + style + [WindowTitle(title)] + widgets;
    FormTitle(body, geometry, style, WindowTitle(title), widgets, title);
    assert body[1..1 + |style|] == style;
    assert body[|body| - |widgets|..] == widgets;
    Form().(children := body)
  }

  /** The `ui` root: the title, the form, the custom widget declarations,
      and the empty stacking-order trailer. */
  function Document(title: string, form: Element, declarations: Element): (root: Element)
    ensures root.tag == "ui" && Attribute(root, "version") == Some("4.0")
    ensures |root.children| == 3
    ensures root.children[0].tag == "class" && root.children[0].text == PlainText(title)
    ensures root.children[1] == form && root.children[2] == declarations
  {
    OpenTag("ui", "", "", map["version" := "4.0"]).(children :=
      [Leaf("class", PlainText(title)), form, declarations] + Trailer([]))
  }

  /** The document `write_ui` writes for screen `s` once the translator has
      recorded the custom widget classes `custom`: the title; the `screen`
      form holding its geometry, the colour style sheet when the screen has
      a colour, the window title, and then, in order, the widget of each
      top-level block; and the declarations of the recorded classes. */
  predicate DocumentOf(s: Screen, t: Tables, root: Element, custom: seq<string>) {
    && root.tag == "ui" && Attribute(root, "version") == Some("4.0")
    && |root.children| == 3
    && root.children[0].tag == "class" && root.children[0].text == PlainText(Title(s))
    && FormOf(s, t, root.children[1], Title(s))
    && root.children[2].tag == "customwidgets"
    && |root.children[2].children| == |Declared(t, custom)|
    && forall i :: 0 <= i < |Declared(t, custom)| ==>
         ReadDeclaration(root.children[2].children[i]) == Some(Declared(t, custom)[i])
  }

  predicate FormOf(s: Screen, t: Tables, form: Element, title: string) {
    FormHead(s, form, title) && FormWidgets(s, t, form)
  }

  /** The form's own part: a `QWidget` named `screen`, its geometry first,
      then the colour style sheet when the screen has a colour, and one
      window title holding `title`. */
  predicate FormHead(s: Screen, form: Element, title: string) {
    var styled := s.color.Some? || s.backgroundColor.Some?;
    && form.tag == "widget"
    && Attribute(form, "class") == Some("QWidget") && Attribute(form, "name") == Some("screen")
    && |form.children| >= 2 + (if styled then 1 else 0)
    && ReadGeometry(form.children[0]) == Some(s.geometry)
    && (styled ==>
          && PropertyName(form.children[1]) == Some("styleSheet")
          && PropertyText(form.children[1]).Some?
          && ReadStyle("QWidget", "screen", PropertyText(form.children[1]).value)
             == Some((s.color, s.backgroundColor)))
    && TextOf(form.children, "windowTitle") == Some(title)
  }

  /** The rest of the form: after the geometry, the optional style sheet
      and the window title come, in order, the widgets of the screen's
      top-level blocks, and nothing else. */
  predicate FormWidgets(s: Screen, t: Tables, form: Element) {
    var n := |form.children|;
    && n == 2 + (if s.color.Some? || s.backgroundColor.Some? then 1 else 0) + |s.widgets|
    && forall i :: 0 <= i < |s.widgets| ==> WidgetFor(t, form.children[n - |s.widgets| + i], s.widgets[i])
  }

  /** The `ui` root for screen `s` with top-level widgets `widgets`. */
  function Ui(s: Screen, t: Tables, widgets: seq<Element>, custom: seq<string>): Element
    requires forall i :: 0 <= i < |widgets| ==> widgets[i].tag == "widget"
  {
    Document(Title(s), FormElement(GeometryProperty(s.geometry), FormStyle(s), Title(s), widgets),
             CustomWidgetsElement(t, custom))
  }

  lemma UiDocument(s: Screen, t: Tables, widgets: seq<Element>, custom: seq<string>)
    requires forall i :: 0 <= i < |widgets| ==> widgets[i].tag == "widget"
    requires |widgets| == |s.widgets|
    requires forall i {:trigger widgets[i]} :: 0 <= i < |widgets| ==> WidgetFor(t, widgets[i], s.widgets[i])
    ensures DocumentOf(s, t, Ui(s, t, widgets, custom), custom)
  {
    var title := Title(s);
    var style := FormStyle(s);
    var geometry := GeometryProperty(s.geometry);
    FormHeadShape(s, geometry, style, title, widgets);
    FormWidgetsShape(s, t, FormElement(geometry, style, title, widgets), widgets);
  }

  lemma FormHeadShape(s: Screen, geometry: Element, style: seq<Element>, title: string, widgets: seq<Element>)
    requires PropertyName(geometry) == Some("geometry") && ReadGeometry(geometry) == Some(s.geometry)
    requires |style| == (if s.color.None? && s.backgroundColor.None? then 0 else 1)
    requires |style| == 1 ==>
               && PropertyName(style[0]) == Some("styleSheet")
               && PropertyText(style[0]).Some?
               && ReadStyle("QWidget", "screen", PropertyText(style[0]).value) == Some((s.color, s.backgroundColor))
    requires forall i :: 0 <= i < |widgets| ==> widgets[i].tag == "widget"
    ensures FormHead(s, FormElement(geometry, style, title, widgets), title)
  {
    var form := FormElement(geometry, style, title, widgets);
    assert |style| == 1 ==> form.children[1] == form.children[1..1 + |style|][0];
  }

  lemma FormWidgetsShape(s: Screen, t: Tables, form: Element, widgets: seq<Element>)
    requires |widgets| == |s.widgets|
    requires |form.children| == 2 + (if s.color.Some? || s.backgroundColor.Some? then 1 else 0) + |widgets|
    requires form.children[|form.children| - |widgets|..] == widgets
    requires forall i {:trigger widgets[i]} :: 0 <= i < |widgets| ==> WidgetFor(t, widgets[i], s.widgets[i])
    ensures FormWidgets(s, t, form)
  {
    var n := |form.children|;
    forall i | 0 <= i < |s.widgets| ensures WidgetFor(t, form.children[n - |s.widgets| + i], s.widgets[i]) {
      assert form.children[n - |s.widgets| + i] == form.children[n - |widgets|..][i];
    }
  }

  /** `write_ui` on a translator whose name registry and custom widget list
      are `st` (a fresh translator starts from `State(map[], [])`; neither
      is reset between calls). It fails when a visited symbol has no table
      entry or a name allocation fails; otherwise it returns the document
      for the screen and the state the calls of `write_block` leave: the
      registry after allocating every visited block's name and the list
      with every visited block's class recorded. The stacking-order trailer
      `closeFile` would append is empty. */
  function WriteUi(s: Screen, t: Tables, st: State): (r: Result<(Element, State)>)
    ensures !AllKnown(t, VisitedAll(s.widgets)) ==> r.Failure?
    ensures AllKnown(t, VisitedAll(s.widgets)) && AllocateAll(st.names, Suggestions(VisitedAll(s.widgets))).Failure?
            ==> r.Failure?
    ensures r.Success? ==>
              && AllKnown(t, VisitedAll(s.widgets))
              && AllocateAll(st.names, Suggestions(VisitedAll(s.widgets))).Success?
              && r.value.1 == State(AllocateAll(st.names, Suggestions(VisitedAll(s.widgets))).value.1,
                                    AddAll(st.custom, Classes(t, VisitedAll(s.widgets))))
    ensures r.Success? ==> DocumentOf(s, t, r.value.0, r.value.1.custom)
  {
    var (widgets, st') :- WriteBlocks(t, Dispatch, st, s.widgets);
    WalkMeaning(t, st, VisitedAll(s.widgets));
    WrittenForest(t, Dispatch, st, s.widgets);
    ForestTags(t, Dispatch, st, s.widgets);
    UiDocument(s, t, widgets, st'.custom);
    Success((Ui(s, t, widgets, st'.custom), st'))
  }

  /** The window title is the one `windowTitle` property of the form. */
  lemma FormTitle(body: seq<Element>, geometry: Element, style: seq<Element>, windowTitle: Element,
                  widgets: seq<Element>, title: string)
    requires body == [geometry] + style + [windowTitle] + widgets
    requires PropertyName(geometry) == Some("geometry")
    requires |style| <= 1 && (|style| == 1 ==> PropertyName(style[0]) == Some("styleSheet"))
    requires PropertyName(windowTitle) == Some("windowTitle") && PropertyText(windowTitle) == Some(title)
    requires forall i :: 0 <= i < |widgets| ==> widgets[i].tag == "widget"
    ensures TextOf(body, "windowTitle") == Some(title)
  {
    var k := 1 + |style|;
    assert body[k] == windowTitle;
    forall j | 0 <= j < |body| && j != k ensures PropertyName(body[j]) != Some("windowTitle") {
      if j > k {
        assert body[j] == widgets[j - k - 1];
      } else if j > 0 {
        assert body[j] == style[0];
      }
    }
    OnlyAt(body, k, "windowTitle");
  }
}

=== FILE: handlers.dfy ===
/** The per-symbol widget mappers of `Widget2Pydm` (`write_block_default`,
    `write_block_byte_indicator`, ..., `write_block_wheel_switch`) and the
    handler table `write_block` dispatches through. Each mapper returns the
    properties it appends to the widget element after its geometry; the
    children of a composite are added by the engine. */
module Handlers {
  import opened Results
  import opened Strings
  import opened Screens
  import opened Xml
  import opened Properties
  import opened Styles
  import opened Mappers

  datatype Handler =
    | ByteIndicator | CartesianPlot | ChoiceButton | CompositeWidget | Image | Indicator
    | Menu | MessageButton | Meter | Polyline | RectangleWidget | RelatedDisplay
    | ShellCommand | StripChart | TextWidget | TextEntry | TextUpdate | Valuator
    | WheelSwitch | DefaultHandler

  /** `pydm_widget_handlers.get(symbol, write_block_default)`. */
  function HandlerFor(symbol: string): (h: Handler)
    ensures h != DefaultHandler ==> SymbolOf(h) == Some(symbol)
  {
    if symbol == "byte" then ByteIndicator
    else if symbol == "cartesian plot" then CartesianPlot
    else if symbol == "choice button" then ChoiceButton
    else if symbol == "composite" then CompositeWidget
    else if symbol == "image" then Image
    else if symbol == "indicator" then Indicator
    else if symbol == "menu" then Menu
    else if symbol == "message button" then MessageButton
    else if symbol == "meter" then Meter
    else if symbol == "polyline" then Polyline
    else if symbol == "rectangle" then RectangleWidget
    else if symbol == "related display" then RelatedDisplay
    else if symbol == "shell command" then ShellCommand
    else if symbol == "strip chart" then StripChart
    else if symbol == "text" then TextWidget
    else if symbol == "text entry" then TextEntry
    else if symbol == "text update" then TextUpdate
    else if symbol == "valuator" then Valuator
    else if symbol == "wheel switch" then WheelSwitch
    else DefaultHandler
  }

  /** The MEDM symbol a handler is registered under; the default handler
      has none. */
  function SymbolOf(h: Handler): Option<string> {
    match h
    case ByteIndicator => Some("byte")
    case CartesianPlot => Some("cartesian plot")
    case ChoiceButton => Some("choice button")
    case CompositeWidget => Some("composite")
    case Image => Some("image")
    case Indicator => Some("indicator")
    case Menu => Some("menu")
    case MessageButton => Some("message button")
    case Meter => Some("meter")
    case Polyline => Some("polyline")
    case RectangleWidget => Some("rectangle")
    case RelatedDisplay => Some("related display")
    case ShellCommand => Some("shell command")
    case StripChart => Some("strip chart")
    case TextWidget => Some("text")
    case TextEntry => Some("text entry")
    case TextUpdate => Some("text update")
    case Valuator => Some("valuator")
    case WheelSwitch => Some("wheel switch")
    case DefaultHandler => None
  }

  /** Every registered symbol selects its own handler, so the table has no
      two entries for one handler and the default is reached only by
      unregistered symbols. */
  lemma HandlerTable(h: Handler)
    ensures SymbolOf(h).None? <==> h == DefaultHandler
    ensures SymbolOf(h).Some? ==> HandlerFor(SymbolOf(h).value) == h
  {
    match h
    case ByteIndicator | CartesianPlot | ChoiceButton | CompositeWidget | Image | Indicator
       | Menu | MessageButton | Meter | Polyline => FirstSymbols(h);
    case RectangleWidget | RelatedDisplay | ShellCommand | StripChart | TextWidget => MiddleSymbols(h);
    case TextEntry | TextUpdate | Valuator | WheelSwitch => LastSymbols(h);
    case DefaultHandler =>
  }

  lemma FirstSymbols(h: Handler)
    requires h in {ByteIndicator, CartesianPlot, ChoiceButton, CompositeWidget, Image, Indicator,
                   Menu, MessageButton, Meter, Polyline}
    ensures HandlerFor(SymbolOf(h).value) == h
  {
  }

  lemma MiddleSymbols(h: Handler)
    requires h in {RectangleWidget, RelatedDisplay, ShellCommand, StripChart, TextWidget}
    ensures HandlerFor(SymbolOf(h).value) == h
  {
  }

  lemma LastSymbols(h: Handler)
    requires h in {TextEntry, TextUpdate, Valuator, WheelSwitch}
    ensures HandlerFor(SymbolOf(h).value) == h
  {
  }

  /** The contents group a PV-bound mapper reads its channel from. */
  function ChannelKey(h: Handler): Option<string> {
    match h
    case ChoiceButton | Menu | MessageButton | TextEntry | Valuator | WheelSwitch => Some("control")
    case Indicator | Meter | TextUpdate => Some("monitor")
    case _ => None
  }

  /** The channel a PV-bound mapper finds, if any. */
  function ChannelFor(h: Handler, b: Block): Option<string> {
    if ChannelKey(h).None? then None
    else match RequiredChannel(b.contents, ChannelKey(h).value)
      case Success(pv) => Some(pv)
      case Failure(_) => None
  }

  // ---------------------------------------------------------------------
  // Reading a widget's properties back

  /** The one property named `name` among `es`, when there is exactly one. */
  function Unique(es: seq<Element>, name: string): Option<Element> {
    var found := PropertiesNamed(es, name);
    if |found| == 1 then Some(found[0]) else None
  }

  /** The text of a widget's tool tip. */
  function TipText(es: seq<Element>): Option<string> {
    match Unique(es, "toolTip")
    case Some(e) => PropertyText(e)
    case None => None
  }

  /** The PV of a widget's channel. */
  function ChannelOf(es: seq<Element>): Option<string> {
    match Unique(es, "channel")
    case Some(e) => ReadChannel(e)
    case None => None
  }

  /** The text of a widget's one property `name`. */
  function TextOf(es: seq<Element>, name: string): Option<string> {
    match Unique(es, name)
    case Some(e) => PropertyText(e)
    case None => None
  }

  /** A property named `name` at index `i` and nowhere else is the one
      `Unique` finds. */
  lemma OnlyAt(es: seq<Element>, i: nat, name: string)
    requires i < |es| && PropertyName(es[i]) == Some(name)
    requires forall j :: 0 <= j < |es| && j != i ==> PropertyName(es[j]) != Some(name)
    ensures Unique(es, name) == Some(es[i])
  {
    var before, after := es[..i], es[i + 1..];
    assert NoneNamed(before, name) by {
      forall k | 0 <= k < |before| ensures PropertyName(before[k]) != Some(name) {
        assert before[k] == es[k];
      }
    }
    assert NoneNamed(after, name) by {
      forall k | 0 <= k < |after| ensures PropertyName(after[k]) != Some(name) {
        assert after[k] == es[i + 1 + k];
      }
    }
    assert es == before + [es[i]] + after;
    PropertiesNamedSingle(before, es[i], after, name);
  }

  lemma NoneAt(es: seq<Element>, name: string)
    requires NoneNamed(es, name)
    ensures Unique(es, name).None? && |PropertiesNamed(es, name)| == 0
  {
    PropertiesNamedNone(es, name);
  }

  /** Two properties with different names are each found once. */
  lemma Pair(x: Element, y: Element, nx: string, ny: string)
    requires PropertyName(x) == Some(nx) && PropertyName(y) == Some(ny) && nx != ny
    ensures Unique([x, y], nx) == Some(x) && Unique([x, y], ny) == Some(y)
  {
    OnlyAt([x, y], 0, nx);
    OnlyAt([x, y], 1, ny);
  }

  /** Three properties with pairwise different names are each found once. */
  lemma Triple(x: Element, y: Element, z: Element, nx: string, ny: string, nz: string)
    requires PropertyName(x) == Some(nx) && PropertyName(y) == Some(ny) && PropertyName(z) == Some(nz)
    requires nx != ny && nx != nz && ny != nz
    ensures Unique([x, y, z], nx) == Some(x) && Unique([x, y, z], ny) == Some(y)
    ensures Unique([x, y, z], nz) == Some(z)
  {
    OnlyAt([x, y, z], 0, nx);
    OnlyAt([x, y, z], 1, ny);
    OnlyAt([x, y, z], 2, nz);
  }

  /** `writeProperty(qw, name, text, tag=tag)`: a Qt property with plain
      text. */
  function PlainProperty(name: string, tag: string, text: string): (e: Element)
    ensures |name| > 0 ==> PropertyName(e) == Some(name)
    ensures PropertyText(e) == Some(text) && "stdset" !in e.attrs
  {
    Property(name, tag, PlainText(text), map[])
  }

  // ---------------------------------------------------------------------
  // The mappers

  /** `write_block_default` and the mappers that so far only write a tool
      tip (byte, cartesian plot, composite, polyline, shell command, strip
      chart): a single tool tip. */
  function TipOnly(tip: string): (r: seq<Element>)
    ensures TipText(r) == Some(tip) && |PropertiesNamed(r, "channel")| == 0 && |r| == 1
  {
    OnlyAt([TooltipOf(tip)], 0, "toolTip");
    NoneAt([TooltipOf(tip)], "channel");
    [TooltipOf(tip)]
  }

  /** `write_block_menu`, `_meter`, `_text_entry`, `_valuator` and
      `_wheel_switch`: the channel, then the PV as tool tip. A missing group
      or a group without a channel fails. */
  function ChannelThenTip(b: Block, key: string): (r: Result<seq<Element>>)
    ensures r.Success? <==> RequiredChannel(b.contents, key).Success?
    ensures r.Success? ==>
              var pv := RequiredChannel(b.contents, key).value;
              ChannelOf(r.value) == Some(pv) && TipText(r.value) == Some(pv) && |r.value| == 2
  {
    var pv :- RequiredChannel(b.contents, key);
    var c, t := ChannelProperty(pv), TooltipOf(pv);
    Pair(c, t, "channel", "toolTip");
    Success([c, t])
  }

  /** `write_block_choice_button`: the PV as tool tip, then the channel. */
  function ChoiceButtonProperties(b: Block): (r: Result<seq<Element>>)
    ensures r.Success? <==> RequiredChannel(b.contents, "control").Success?
    ensures r.Success? ==>
              var pv := RequiredChannel(b.contents, "control").value;
              ChannelOf(r.value) == Some(pv) && TipText(r.value) == Some(pv) && |r.value| == 2
  {
    var pv :- RequiredChannel(b.contents, "control");
    var t, c := TooltipOf(pv), ChannelProperty(pv);
    Pair(t, c, "toolTip", "channel");
    Success([t, c])
  }

  /** `write_block_image`: a PyDM `filename` property whose text is the
      image name, left empty when there is none, then the name as tool
      tip. */
  function ImageProperties(b: Block, nm: string): (r: Result<seq<Element>>)
    ensures r.Failure? <==> "image name" in b.contents && b.contents["image name"].Group?
    ensures r.Success? ==>
              && TipText(r.value) == Some(nm)
              && |PropertiesNamed(r.value, "channel")| == 0
              && Unique(r.value, "filename").Some?
              && Attribute(Unique(r.value, "filename").value, "stdset") == Some("0")
              && PropertyText(Unique(r.value, "filename").value)
                 == (if "image name" in b.contents then Some(b.contents["image name"].text) else None)
  {
    var image :- if "image name" !in b.contents then Success(None)
                 else match b.contents["image name"]
                   case Text(s) => Success(Some(s))
                   case Group(_) => Failure("image name is not a string");
    var f := Property("filename", "string", if image.Some? then PlainText(image.value) else None, PyDMOnly);
    var t := TooltipOf(nm);
    assert "name" !in PyDMOnly;
    Pair(f, t, "filename", "toolTip");
    NoneAt([f, t], "channel");
    Success([f, t])
  }

  /** `write_block_indicator`: the monitored channel, the name as tool tip
      and the title as text. */
  function IndicatorProperties(b: Block, nm: string): (r: Result<seq<Element>>)
    ensures r.Success? <==> RequiredChannel(b.contents, "monitor").Success?
    ensures r.Success? ==>
              && ChannelOf(r.value) == Some(RequiredChannel(b.contents, "monitor").value)
              && TipText(r.value) == Some(nm)
              && TextOf(r.value, "text") == Some(b.title)
  {
    var pv :- RequiredChannel(b.contents, "monitor");
    var c, t, x := ChannelProperty(pv), TooltipOf(nm), PlainProperty("text", "string", b.title);
    Triple(c, t, x, "channel", "toolTip", "text");
    Success([c, t, x])
  }

  /** The optional `pressValue` of a message button: none without a
      `press_msg`, a plain string otherwise. */
  function PressValue(contents: map<string, Attr>): (r: Result<seq<Element>>)
    ensures r.Failure? <==> "press_msg" in contents && contents["press_msg"].Group?
    ensures r.Success? ==> (|r.value| == 0 <==> "press_msg" !in contents)
    ensures r.Success? && |r.value| > 0 ==>
              |r.value| == 1 && PropertyName(r.value[0]) == Some("pressValue")
              && PropertyText(r.value[0]) == Some(contents["press_msg"].text)
              && Attribute(r.value[0], "stdset") == Some("0")
  {
    if "press_msg" !in contents then Success([])
    else match contents["press_msg"]
      case Text(msg) => Success([PyDMProperty("pressValue", "string", msg)])
      case Group(_) => Failure("press_msg is not a string")
  }

  /** `write_block_message_button`: the title as text, the PV as tool tip,
      the channel, and the press message when there is one. */
  function MessageButtonProperties(b: Block): (r: Result<seq<Element>>)
    ensures r.Success? <==>
              RequiredChannel(b.contents, "control").Success? && PressValue(b.contents).Success?
    ensures r.Success? ==>
              var pv := RequiredChannel(b.contents, "control").value;
              && ChannelOf(r.value) == Some(pv)
              && TipText(r.value) == Some(pv)
              && TextOf(r.value, "text") == Some(b.title)
              && TextOf(r.value, "pressValue")
                 == (if "press_msg" in b.contents then Some(b.contents["press_msg"].text) else None)
  {
    var pv :- RequiredChannel(b.contents, "control");
    var press :- PressValue(b.contents);
    var x, t, c := PlainProperty("text", "string", b.title), TooltipOf(pv), ChannelProperty(pv);
    MessageButtonNames(x, t, c, press);
    Success([x, t, c] + press)
  }

  lemma MessageButtonNames(x: Element, t: Element, c: Element, press: seq<Element>)
    requires PropertyName(x) == Some("text") && PropertyName(t) == Some("toolTip")
    requires PropertyName(c) == Some("channel")
    requires |press| <= 1 && (|press| == 1 ==> PropertyName(press[0]) == Some("pressValue"))
    ensures var es := [x, t, c] + press;
            && Unique(es, "text") == Some(x)
            && Unique(es, "toolTip") == Some(t)
            && Unique(es, "channel") == Some(c)
            && Unique(es, "pressValue") == (if |press| == 1 then Some(press[0]) else None)
  {
    var es := [x, t, c] + press;
    OnlyAt(es, 0, "text");
    OnlyAt(es, 1, "toolTip");
    OnlyAt(es, 2, "channel");
    if |press| == 0 {
      NoneAt(es, "pressValue");
    } else {
      OnlyAt(es, 3, "pressValue");
    }
  }

  /** `write_block_text`: the title as text, the name as tool tip, and the
      alignment. */
  function TextProperties(b: Block, nm: string): (r: Result<seq<Element>>)
    ensures r.Success? <==> AlignmentProperty(b.contents).Success?
    ensures r.Success? ==>
              && TipText(r.value) == Some(nm)
              && |PropertiesNamed(r.value, "channel")| == 0
              && TextOf(r.value, "text") == Some(b.title)
              && Unique(r.value, "alignment") == Some(AlignmentProperty(b.contents).value)
  {
    var align :- AlignmentProperty(b.contents);
    var x, t := PlainProperty("text", "string", b.title), TooltipOf(nm);
    Triple(x, t, align, "text", "toolTip", "alignment");
    NoneAt([x, t, align], "channel");
    Success([x, t, align])
  }

  const SelectableText: string := "Qt::TextSelectableByKeyboard|Qt::TextSelectableByMouse"

  /** `write_block_text_update`: "PV: " and the PV as tool tip, the
      alignment, selectable text, the channel, and a style sheet with the
      block's colors (which needs the widget's class and name even when
      there is no color). */
  function TextUpdateProperties(b: Block, qw: Element): (r: Result<seq<Element>>)
    ensures r.Success? <==>
              && RequiredChannel(b.contents, "monitor").Success?
              && AlignmentProperty(b.contents).Success?
              && "class" in qw.attrs && "name" in qw.attrs
    ensures r.Success? ==>
              var pv := RequiredChannel(b.contents, "monitor").value;
              && ChannelOf(r.value) == Some(pv)
              && TipText(r.value) == Some("PV: " + pv)
              && Unique(r.value, "alignment") == Some(AlignmentProperty(b.contents).value)
              && TextOf(r.value, "textInteractionFlags") == Some(SelectableText)
              && (Unique(r.value, "styleSheet").Some? <==> b.color.Some? || b.backgroundColor.Some?)
  {
    var pv :- RequiredChannel(b.contents, "monitor");
    var align :- AlignmentProperty(b.contents);
    var style :- StyleSheet(qw, b.color, b.backgroundColor);
    var t, f, c := TooltipOf("PV: " + pv), PlainProperty("textInteractionFlags", "set", SelectableText),
                   ChannelProperty(pv);
    TextUpdateNames(t, align, f, c, style);
    Success([t, align, f, c] + style)
  }

  lemma TextUpdateNames(t: Element, align: Element, f: Element, c: Element, style: seq<Element>)
    requires PropertyName(t) == Some("toolTip") && PropertyName(align) == Some("alignment")
    requires PropertyName(f) == Some("textInteractionFlags") && PropertyName(c) == Some("channel")
    requires |style| <= 1 && (|style| == 1 ==> PropertyName(style[0]) == Some("styleSheet"))
    ensures var es := [t, align, f, c] + style;
            && Unique(es, "toolTip") == Some(t)
            && Unique(es, "alignment") == Some(align)
            && Unique(es, "textInteractionFlags") == Some(f)
            && Unique(es, "channel") == Some(c)
            && (Unique(es, "styleSheet").Some? <==> |style| == 1)
  {
    var es := [t, align, f, c] + style;
    OnlyAt(es, 0, "toolTip");
    OnlyAt(es, 1, "alignment");
    TextUpdateTail(t, align, f, c, style);
  }

  lemma TextUpdateTail(t: Element, align: Element, f: Element, c: Element, style: seq<Element>)
    requires PropertyName(t) == Some("toolTip") && PropertyName(align) == Some("alignment")
    requires PropertyName(f) == Some("textInteractionFlags") && PropertyName(c) == Some("channel")
    requires |style| <= 1 && (|style| == 1 ==> PropertyName(style[0]) == Some("styleSheet"))
    ensures var es := [t, align, f, c] + style;
            && Unique(es, "textInteractionFlags") == Some(f)
            && Unique(es, "channel") == Some(c)
            && (Unique(es, "styleSheet").Some? <==> |style| == 1)
  {
    var es := [t, align, f, c] + style;
    OnlyAt(es, 2, "textInteractionFlags");
    OnlyAt(es, 3, "channel");
    if |style| == 0 {
      NoneAt(es, "styleSheet");
    } else {
      OnlyAt(es, 4, "styleSheet");
    }
  }



  /** A rectangle's properties hold one tool tip, its name, and no
      channel. */
  lemma RectangleNames(b: Block, nm: string)
    requires RectangleProperties(b, nm).Success?
    ensures TipText(RectangleProperties(b, nm).value) == Some(nm)
    ensures ChannelOf(RectangleProperties(b, nm).value).None?
  {
    var attr := BasicAttribute(b.contents).value;
    var brush := BrushStyle(FillOf(attr)).value;
    RectangleLayout(nm, brush, PenStyle(StyleOf(attr)).value, PenWidthText(WidthOf(attr), brush).value,
                    b.color, DynamicRules(b.contents).value);
  }

  lemma RectangleLayout(nm: string, brush: string, pen: string, width: string, color: Option<Color>,
                        rules: seq<Element>)
    requires |rules| <= 1 && (|rules| == 1 ==> PropertyName(rules[0]) == Some("rules"))
    ensures var es := RectangleElements(nm, brush, pen, width, color, rules);
            TipText(es) == Some(nm) && ChannelOf(es).None?
  {
    var es := RectangleElements(nm, brush, pen, width, color, rules);
    RectangleParts(nm, brush, pen, width, color, rules);
    OutlineNames(es, rules);
  }

  /** The names a rectangle's five outline properties and its rules carry:
      one tool tip first and no channel. */
  lemma OutlineNames(es: seq<Element>, rules: seq<Element>)
    requires |es| == 5 + |rules| && es[5..] == rules
    requires |rules| <= 1 && (|rules| == 1 ==> PropertyName(rules[0]) == Some("rules"))
    requires PropertyName(es[0]) == Some("toolTip") && PropertyName(es[1]) == Some("brush")
    requires PropertyName(es[2]) == Some("penStyle") && PropertyName(es[3]) == Some("penColor")
    requires PropertyName(es[4]) == Some("penWidth")
    requires PropertyText(es[0]).Some?
    ensures TipText(es) == PropertyText(es[0]) && ChannelOf(es).None?
  {
    assert |es| == 6 ==> es[5] == rules[0];
    OnlyAt(es, 0, "toolTip");
    NoneAt(es, "channel");
  }

  lemma RelatedDisplayNames(b: Block, nm: string)
    ensures TipText(RelatedDisplayProperties(b, nm)) == Some(LStrip(Caption(b, nm), '-'))
    ensures ChannelOf(RelatedDisplayProperties(b, nm)).None?
  {
    var es := RelatedDisplayProperties(b, nm);
    OnlyAt(es, 0, "toolTip");
    NoneAt(es, "channel");
  }

  // ---------------------------------------------------------------------
  // Dispatch

  /** The mappers that cannot fail: they read nothing from the block but
      its title. */
  predicate AlwaysSucceeds(h: Handler) {
    h in {DefaultHandler, ByteIndicator, CartesianPlot, CompositeWidget, Polyline, RelatedDisplay,
          ShellCommand, StripChart}
  }

  /** The tool tip each mapper gives its widget: the PV for the
      PV-bound widgets ("PV: " and the PV for a text update), the stripped
      caption for a related display, "TBA widget: " and the name for an
      unregistered symbol, and the widget name otherwise. */
  function ExpectedTip(h: Handler, b: Block, nm: string): string {
    var pv := ChannelFor(h, b).GetOr("");
    match h
    case DefaultHandler => "TBA widget: " + nm
    case ChoiceButton | Menu | MessageButton | Meter | TextEntry | Valuator | WheelSwitch => pv
    case TextUpdate => "PV: " + pv
    case RelatedDisplay => LStrip(Caption(b, nm), '-')
    case _ => nm
  }

  /** A widget mapper: `handler(parent, block, nm, qw)` gives the properties
      written into the widget `qw` named `nm` (the parent is never used). */
  type Mapper = (Block, string, Element) -> Result<seq<Element>>

  /** The bound method `pydm_widget_handlers` holds for each handler. */
  function MapperOf(h: Handler): Mapper {
    match h
    case DefaultHandler => (b, nm, qw) => Success(TipOnly("TBA widget: " + nm))
    case ByteIndicator | CartesianPlot | CompositeWidget | Polyline | ShellCommand | StripChart =>
      (b, nm, qw) => Success(TipOnly(nm))
    case ChoiceButton => (b, nm, qw) => ChoiceButtonProperties(b)
    case Image => (b, nm, qw) => ImageProperties(b, nm)
    case Indicator => (b, nm, qw) => IndicatorProperties(b, nm)
    case Menu | TextEntry | Valuator | WheelSwitch => (b, nm, qw) => ChannelThenTip(b, "control")
    case Meter => (b, nm, qw) => ChannelThenTip(b, "monitor")
    case MessageButton => (b, nm, qw) => MessageButtonProperties(b)
    case RectangleWidget => (b, nm, qw) => RectangleProperties(b, nm)
    case RelatedDisplay => (b, nm, qw) => Success(RelatedDisplayProperties(b, nm))
    case TextWidget => (b, nm, qw) => TextProperties(b, nm)
    case TextUpdate => (b, nm, qw) => TextUpdateProperties(b, qw)
  }

  /** The mappers that read nothing but the title and name always
      succeed; a PV-bound mapper that finds no PV fails. */
  lemma HandlerOutcome(h: Handler, b: Block, nm: string, qw: Element)
    ensures AlwaysSucceeds(h) ==> MapperOf(h)(b, nm, qw).Success?
    ensures ChannelKey(h).Some? && ChannelFor(h, b).None? ==> MapperOf(h)(b, nm, qw).Failure?
  {
    if ChannelKey(h).Some? {
      PvOutcome(h, b, nm, qw);
    }
  }

  lemma PvOutcome(h: Handler, b: Block, nm: string, qw: Element)
    requires ChannelKey(h).Some?
    ensures ChannelFor(h, b).None? ==> MapperOf(h)(b, nm, qw).Failure?
  {
  }

  /** Every widget gets exactly one tool tip, the one its mapper promises. */
  lemma HandlerTip(h: Handler, b: Block, nm: string, qw: Element)
    requires MapperOf(h)(b, nm, qw).Success?
    ensures TipText(MapperOf(h)(b, nm, qw).value) == Some(ExpectedTip(h, b, nm))
  {
    if ChannelKey(h).None? {
      match h
      case RectangleWidget => RectangleNames(b, nm);
      case RelatedDisplay => RelatedDisplayNames(b, nm);
      case _ =>
    }
  }

  /** The PV-bound widgets get exactly one channel, reading back as the PV
      of their group; the others get none. */
  lemma HandlerChannel(h: Handler, b: Block, nm: string, qw: Element)
    requires MapperOf(h)(b, nm, qw).Success?
    ensures ChannelOf(MapperOf(h)(b, nm, qw).value) == ChannelFor(h, b)
  {
    if ChannelKey(h).None? {
      match h
      case RectangleWidget => RectangleNames(b, nm);
      case RelatedDisplay => RelatedDisplayNames(b, nm);
      case _ =>
    }
  }
}

=== FILE: mappers.dfy ===
/** The widget mappers with logic of their own: `write_block_rectangle`
    (brush, pen and the PyDM rules of a dynamic attribute) and
    `write_block_related_display` (the leading-dash convention). */
module Mappers {
  import opened Results
  import opened Strings
  import opened Screens
  import opened Xml
  import opened Properties
  import Rules

  // ---------------------------------------------------------------------
  // Rectangle

  /** The Qt brush for a MEDM fill; any other fill is a KeyError. */
  function BrushStyle(fill: string): Option<string> {
    if fill == "solid" then Some("SolidPattern")
    else if fill == "outline" then Some("NoBrush")
    else None
  }

  /** The Qt pen for a MEDM line style; any other style is a KeyError. */
  function PenStyle(style: string): Option<string> {
    if style == "solid" then Some("Qt::SolidLine")
    else if style == "dash" then Some("Qt::DashLine")
    else None
  }

  /** `contents.get("basic attribute", {})`: a plain string there has no
      `.get` and raises. */
  function BasicAttribute(contents: map<string, Attr>): Result<map<string, string>> {
    if "basic attribute" !in contents then Success(map[])
    else match contents["basic attribute"]
      case Group(m) => Success(m)
      case Text(_) => Failure("basic attribute is not a group")
  }

  function Max(a: int, b: int): int {
    if a >= b then a else b
  }

  /** The number a pen width text stands for: `str(float)` of an integer
      ends in ".0", `str(int)` does not. */
  function ReadWidth(t: string): Option<int> {
    if |t| >= 2 && t[|t| - 2..] == ".0" then ParseInt(t[..|t| - 2]) else ParseInt(t)
  }

  /** The penWidth text. For a solid brush the width is written as given
      (absent: `str(0)`). For an outline (`NoBrush`) it is
      `str(max(1, float(width)))`, so the outline is always visible: a
      width of at most 1 becomes the integer 1, a larger one the float. */
  function PenWidthText(width: Option<string>, brush: string): (r: Result<string>)
    ensures brush != "NoBrush" ==> r.Success? && r.value == width.GetOr("0")
    ensures brush == "NoBrush" && width.None? ==> r == Success("1")
    ensures brush == "NoBrush" && width.Some? ==> (r.Success? <==> ParseInt(width.value).Some?)
    ensures brush == "NoBrush" && r.Success? ==>
              && ReadWidth(r.value).Some?
              && ReadWidth(r.value).value >= 1
              && (width.Some? ==> ReadWidth(r.value).value == Max(1, ParseInt(width.value).value))
  {
    if brush != "NoBrush" then Success(width.GetOr("0"))
    else
      var w :- if width.Some? then
                 match ParseInt(width.value)
                 case Some(v) => Success(v)
                 case None => Failure("could not convert width to float")
               else Success(0);
      WidthText(w)
  }

  /** `str(max(1, float(w)))` for an integer `w`. */
  function WidthText(w: int): (r: Result<string>)
    ensures r.Success? && ReadWidth(r.value) == Some(Max(1, w))
  {
    if w <= 1 then
      assert IntToString(1) == "1";
      IntRoundTrip(1);
      Success("1")
    else
      var digits := IntToString(w);
      var t := digits + ".0";
      assert t[|t| - 2..] == ".0" && t[..|t| - 2] == digits;
      IntRoundTrip(w);
      Success(t)
  }

  /** `contents.get("dynamic attribute", {})`: rules are written only for a
      non-empty one. A plain string there is a TypeError unless empty. */
  function DynamicRules(contents: map<string, Attr>): (r: Result<seq<Element>>)
    ensures r.Success? ==> |r.value| <= 1
    ensures r.Success? && |r.value| == 1 ==>
              && "dynamic attribute" in contents
              && contents["dynamic attribute"].Group?
              && var rules := Rules.Interpret(contents["dynamic attribute"].entries);
              && rules.Success?
              && PropertyName(r.value[0]) == Some("rules")
              && Attribute(r.value[0], "stdset") == Some("0")
              && PropertyValue(r.value[0]) == Some(RulesJson(rules.value))
    ensures r.Success? && |r.value| == 0 <==>
              "dynamic attribute" !in contents
              || contents["dynamic attribute"] == Group(map[])
              || contents["dynamic attribute"] == Text("")
  {
    if "dynamic attribute" !in contents then Success([])
    else match contents["dynamic attribute"]
      case Text(s) => if |s| == 0 then Success([]) else Failure("dynamic attribute is not a group")
      case Group(m) =>
        if |m| == 0 then Success([])
        else
          var rules :- Rules.Interpret(m);
          Success([Property("rules", "string", Some(RulesJson(rules)), PyDMOnly)])
  }

  /** The width text a rectangle's basic attribute gives, if any. */
  function WidthOf(attr: map<string, string>): Option<string> {
    if "width" in attr then Some(attr["width"]) else None
  }

  /** The fill and line style a basic attribute selects, "solid" by default. */
  function FillOf(attr: map<string, string>): string {
    if "fill" in attr then attr["fill"] else "solid"
  }

  function StyleOf(attr: map<string, string>): string {
    if "style" in attr then attr["style"] else "solid"
  }

  /** A table lookup that raises KeyError when the key is unknown. */
  function Lookup(v: Option<string>, what: string): (r: Result<string>)
    ensures r.Success? <==> v.Some?
    ensures r.Success? ==> r.value == v.value
  {
    if v.Some? then Success(v.value) else Failure("unknown " + what)
  }

  /** The `brush` property: the brush style, holding the block's color
      made opaque. */
  function BrushProperty(brush: string, color: Option<Color>): (e: Element)
    ensures PropertyName(e) == Some("brush") && Attribute(e, "stdset") == Some("0")
    ensures |e.children| == 1 && Attribute(e.children[0], "brushstyle") == Some(brush)
    ensures e.children[0].children == ColorElements(color, map["alpha" := "255"])
    ensures HoldsColor(e.children[0].children, color)
    ensures color.Some? ==> Attribute(e.children[0].children[0], "alpha") == Some("255")
  {
    ColorElementsHold(color, map["alpha" := "255"]);
    var brushTag := OpenTag("brush", "", "", map["brushstyle" := brush])
                    .(children := ColorElements(color, map["alpha" := "255"]));
    PyDMOpenProperty("brush", [brushTag])
  }

  /** The elements a rectangle writes once its brush, pen and width are
      known. */
  function RectangleElements(nm: string, brush: string, pen: string, width: string, color: Option<Color>,
                             rules: seq<Element>): seq<Element>
  {
    [TooltipOf(nm),
     BrushProperty(brush, color),
     PyDMProperty("penStyle", "enum", pen),
     PyDMOpenProperty("penColor", ColorElements(color, map[])),
     PyDMProperty("penWidth", "double", width)]
    + rules
  }

  /** `write_block_rectangle`. It fails on a basic attribute that is not a
      group, an unknown fill or line style, an outline width that is not a
      number, and a dynamic attribute that does not translate; otherwise it
      writes the elements for the fill, line style and width the basic
      attribute selects ("solid" by default). */
  function RectangleProperties(b: Block, nm: string): (r: Result<seq<Element>>)
    ensures r.Success? <==>
              && BasicAttribute(b.contents).Success?
              && var attr := BasicAttribute(b.contents).value;
              && BrushStyle(FillOf(attr)).Some?
              && PenStyle(StyleOf(attr)).Some?
              && PenWidthText(WidthOf(attr), BrushStyle(FillOf(attr)).value).Success?
              && DynamicRules(b.contents).Success?
    ensures r.Success? ==>
              var attr := BasicAttribute(b.contents).value;
              var brush := BrushStyle(FillOf(attr)).value;
              r.value == RectangleElements(nm, brush, PenStyle(StyleOf(attr)).value,
                                           PenWidthText(WidthOf(attr), brush).value,
                                           b.color, DynamicRules(b.contents).value)
  {
    var attr :- BasicAttribute(b.contents);
    var brush :- Lookup(BrushStyle(FillOf(attr)), "fill");
    var pen :- Lookup(PenStyle(StyleOf(attr)), "style");
    var width :- PenWidthText(WidthOf(attr), brush);
    var rules :- DynamicRules(b.contents);
    Success(RectangleElements(nm, brush, pen, width, b.color, rules))
  }

  /** A rectangle writes tool tip, brush, pen style, pen color and pen width
      in that order, then whatever rules it has. */
  lemma RectangleOrder(nm: string, brush: string, pen: string, width: string, color: Option<Color>,
                       rules: seq<Element>)
    ensures var es := RectangleElements(nm, brush, pen, width, color, rules);
            && |es| == 5 + |rules| && es[5..] == rules
            && PropertyName(es[0]) == Some("toolTip")
            && PropertyName(es[1]) == Some("brush")
            && PropertyName(es[2]) == Some("penStyle")
            && PropertyName(es[3]) == Some("penColor")
            && PropertyName(es[4]) == Some("penWidth")
            && PropertyText(es[0]) == Some(nm)
            && PropertyText(es[2]) == Some(pen)
            && PropertyText(es[4]) == Some(width)
  {
    RectangleParts(nm, brush, pen, width, color, rules);
  }

  /** The brush has the rectangle's brush style and its color, made opaque;
      the pen has the same color. */
  lemma RectangleColors(nm: string, brush: string, pen: string, width: string, color: Option<Color>,
                        rules: seq<Element>)
    ensures var es := RectangleElements(nm, brush, pen, width, color, rules);
            && |es[1].children| == 1
            && Attribute(es[1].children[0], "brushstyle") == Some(brush)
            && HoldsColor(es[1].children[0].children, color)
            && (color.Some? ==> Attribute(es[1].children[0].children[0], "alpha") == Some("255"))
            && HoldsColor(es[3].children, color)
  {
    RectangleParts(nm, brush, pen, width, color, rules);
    ColorElementsHold(color, map[]);
  }

  /** The five fixed parts of a rectangle, one by one. */
  lemma RectangleParts(nm: string, brush: string, pen: string, width: string, color: Option<Color>,
                       rules: seq<Element>)
    ensures var es := RectangleElements(nm, brush, pen, width, color, rules);
            && |es| == 5 + |rules| && es[5..] == rules
            && es[0] == TooltipOf(nm)
            && es[1] == BrushProperty(brush, color)
            && es[2] == PyDMProperty("penStyle", "enum", pen)
            && es[3] == PyDMOpenProperty("penColor", ColorElements(color, map[]))
            && es[4] == PyDMProperty("penWidth", "double", width)
  {
    var head := [TooltipOf(nm), BrushProperty(brush, color), PyDMProperty("penStyle", "enum", pen),
                 PyDMOpenProperty("penColor", ColorElements(color, map[])), PyDMProperty("penWidth", "double", width)];
    var es := head + rules;
    assert es[5..] == rules;
    assert es[0] == head[0] && es[1] == head[1] && es[2] == head[2] && es[3] == head[3] && es[4] == head[4];
  }

  /** A rectangle with a non-empty dynamic attribute ends with its rules,
      and an outline rectangle's pen width reads back as at least 1. */
  lemma RectangleRulesAndOutline(b: Block, nm: string)
    requires RectangleProperties(b, nm).Success?
    ensures var es := RectangleProperties(b, nm).value;
            var attr := BasicAttribute(b.contents).value;
            && (|es| == 6 <==> DynamicRules(b.contents).value != [])
            && (|es| == 6 ==> PropertyName(es[5]) == Some("rules"))
            && (FillOf(attr) == "outline" ==>
                  && PropertyText(es[4]).Some?
                  && ReadWidth(PropertyText(es[4]).value).Some?
                  && ReadWidth(PropertyText(es[4]).value).value >= 1)
  {
    var attr := BasicAttribute(b.contents).value;
    var brush := BrushStyle(FillOf(attr)).value;
    var rules := DynamicRules(b.contents).value;
    RectangleOrder(nm, brush, PenStyle(StyleOf(attr)).value, PenWidthText(WidthOf(attr), brush).value,
                   b.color, rules);
  }

  /** MEDM's "outline" rectangle with width 0 gets pen width 1. */
  lemma ExampleOutlineWidth()
    ensures PenWidthText(Some("0"), "NoBrush") == Success("1")
  {
    assert IntToString(0) == "0";
    IntRoundTrip(0);
  }

  // ---------------------------------------------------------------------
  // Related display

  /** The text a related display shows: its title, else its widget name. */
  function Caption(b: Block, nm: string): string {
    if |b.title| > 0 then b.title else nm
  }

  /** `write_block_related_display`: a tool tip and the text shown, both
      the caption with any leading dashes stripped, then `showIcon` false
      when there were dashes (MEDM's way of hiding the icon). */
  function RelatedDisplayProperties(b: Block, nm: string): (r: seq<Element>)
    ensures |r| == 2 || |r| == 3
    ensures PropertyName(r[0]) == Some("toolTip") && PropertyName(r[1]) == Some("text")
    ensures PropertyText(r[0]) == PropertyText(r[1]) == Some(LStrip(Caption(b, nm), '-'))
    ensures |r| == 3 ==> PropertyName(r[2]) == Some("showIcon") && PropertyText(r[2]) == Some("false")
  {
    var caption := Caption(b, nm);
    var text := LStrip(caption, '-');
    var shown := [TooltipOf(text), Property("text", "string", PlainText(text), map[])];
    if StartsWith(caption, "-") then shown + [PyDMProperty("showIcon", "bool", "false")]
    else shown
  }

  /** The text shown is the caption without its leading dashes, and the
      icon is hidden exactly when there were some. */
  lemma RelatedDisplayStrips(b: Block, nm: string)
    ensures var r := RelatedDisplayProperties(b, nm);
            var caption := Caption(b, nm);
            var shown := PropertyText(r[1]).value;
            && |shown| <= |caption|
            && caption[..|caption| - |shown|] + shown == caption
            && (forall i :: 0 <= i < |caption| - |shown| ==> caption[i] == '-')
            && (|shown| > 0 ==> shown[0] != '-')
            && (|r| == 3 <==> |shown| < |caption|)
            && (|r| == 3 ==> PropertyName(r[2]) == Some("showIcon") && PropertyText(r[2]) == Some("false"))
  {
    var caption := Caption(b, nm);
    var k := LeadingRun(caption, '-');
    assert caption[..k] + caption[k..] == caption;
    DashPrefix(caption, k);
    var r := RelatedDisplayProperties(b, nm);
    if |r| == 3 {
      assert r[2] == PyDMProperty("showIcon", "bool", "false");
    }
  }

  /** A string starts with "-" exactly when its leading run of dashes is
      not empty. */
  lemma DashPrefix(s: string, k: nat)
    requires k == LeadingRun(s, '-')
    ensures 0 < k <==> StartsWith(s, "-")
  {
    if StartsWith(s, "-") {
      assert s[..1][0] == '-';
    }
  }
}

=== FILE: names.dfy ===
/** Widget names: `Widget2Pydm.get_unique_widget_name`. The registry maps
    each suggested base name to the names already issued from it, in issue
    order. The collision test looks at the base names (the keys), not at the
    issued names, so uniqueness holds per base and not across bases. */
module Names {
  import opened Results
  import opened Strings

  type Registry = map<string, seq<string>>

  /** The `k`-th name issued from `base`: the base itself first, then
      `base_1`, `base_2`, ... */
  function NameFor(base: string, k: nat): string {
    if k == 0 then base else Candidate(base, k)
  }

  /** The suffixed candidate `"%s_%d" % (base, k)`. */
  function Candidate(base: string, k: nat): string {
    base + "_" + NatToString(k)
  }

  /** `get_unique_widget_name`: the name and the registry after the call.
      The first request for a base returns it unchanged; a later one
      returns the base suffixed with the number of names already issued
      from it, and fails when that candidate is itself a known base. A
      successful call appends the returned name to its base's list and
      changes nothing else. */
  function Allocate(reg: Registry, suggestion: string): (r: Result<(string, Registry)>)
    ensures r.Failure? <==>
              suggestion in reg && Candidate(suggestion, |reg[suggestion]|) in reg
    ensures r.Success? ==>
              var (name, reg') := r.value;
              && (suggestion !in reg ==> name == suggestion)
              && (suggestion in reg ==> name == Candidate(suggestion, |reg[suggestion]|))
              && reg'.Keys == reg.Keys + {suggestion}
              && reg'[suggestion] == (if suggestion in reg then reg[suggestion] else []) + [name]
              && (forall b :: b in reg && b != suggestion ==> reg'[b] == reg[b])
  {
    if suggestion in reg then
      var unique := Candidate(suggestion, |reg[suggestion]|);
      if unique in reg then Failure("trouble getting a unique name from " + suggestion)
      else Success((unique, reg[suggestion := reg[suggestion] + [unique]]))
    else
      Success((suggestion, reg[suggestion := [suggestion]]))
  }

  /** The names issued from `base` are exactly its first `|names|` names. */
  predicate IssuedFrom(base: string, names: seq<string>) {
    |names| >= 1 && forall k :: 0 <= k < |names| ==> names[k] == NameFor(base, k)
  }

  /** The registry invariant every allocation keeps. */
  predicate WellFormed(reg: Registry) {
    forall b :: b in reg ==> IssuedFrom(b, reg[b])
  }

  /** Distinct indices give distinct names for one base. */
  lemma NameForInjective(base: string, i: nat, j: nat)
    requires NameFor(base, i) == NameFor(base, j)
    ensures i == j
  {
    if i != 0 && j != 0 {
      var p := base + "_";
      assert NameFor(base, i) == p + NatToString(i);
      assert NameFor(base, j) == p + NatToString(j);
      assert NatToString(i) == NameFor(base, i)[|p|..];
      assert NatToString(j) == NameFor(base, j)[|p|..];
      NatToStringInjective(i, j);
    }
  }

  /** Allocation keeps the registry well formed. */
  lemma AllocatePreservesWellFormed(reg: Registry, suggestion: string)
    requires WellFormed(reg)
    requires Allocate(reg, suggestion).Success?
    ensures WellFormed(Allocate(reg, suggestion).value.1)
  {
    var reg' := Allocate(reg, suggestion).value.1;
    forall b | b in reg' ensures IssuedFrom(b, reg'[b]) {
      if b == suggestion && suggestion in reg {
        assert IssuedFrom(b, reg[b]);
      }
    }
  }

  /** In a well-formed registry the names issued from one base are pairwise
      distinct, and the name a successful allocation returns was not yet
      issued from its base. */
  lemma IssuedNamesDistinct(reg: Registry, b: string, i: int, j: int)
    requires WellFormed(reg) && b in reg
    requires 0 <= i < j < |reg[b]|
    ensures reg[b][i] != reg[b][j]
  {
    if reg[b][i] == reg[b][j] {
      NameForInjective(b, i, j);
    }
  }

  lemma AllocateFresh(reg: Registry, suggestion: string)
    requires WellFormed(reg) && suggestion in reg
    requires Allocate(reg, suggestion).Success?
    ensures Allocate(reg, suggestion).value.0 !in reg[suggestion]
  {
    var names := reg[suggestion];
    var name := Allocate(reg, suggestion).value.0;
    if name in names {
      var k :| 0 <= k < |names| && names[k] == name;
      NameForInjective(suggestion, k, |names|);
    }
  }

  // ---------------------------------------------------------------------
  // Sequences of allocations, in document-walk order

  /** One allocation per suggestion, left to right. */
  function AllocateAll(reg: Registry, suggestions: seq<string>): Result<(seq<string>, Registry)>
    decreases |suggestions|
  {
    if |suggestions| == 0 then Success(([], reg))
    else
      var (name, reg1) :- Allocate(reg, suggestions[0]);
      var (rest, reg2) :- AllocateAll(reg1, suggestions[1..]);
      Success(([name] + rest, reg2))
  }

  /** Allocating for `a + b` is allocating for `a` and then, from the
      registry that leaves, for `b`. */
  lemma {:induction false} AllocateAllAppend(reg: Registry, a: seq<string>, b: seq<string>)
    requires AllocateAll(reg, a).Success?
    requires AllocateAll(AllocateAll(reg, a).value.1, b).Success?
    ensures AllocateAll(reg, a + b)
            == Success((AllocateAll(reg, a).value.0 + AllocateAll(AllocateAll(reg, a).value.1, b).value.0,
                        AllocateAll(AllocateAll(reg, a).value.1, b).value.1))
    decreases |a|
  {
    var (names, regA) := AllocateAll(reg, a).value;
    var (more, regB) := AllocateAll(regA, b).value;
    if |a| == 0 {
      assert a + b == b && names == [] && names + more == more && regA == reg;
    } else {
      var (name, reg1) := Allocate(reg, a[0]).value;
      var rest := AllocateAll(reg1, a[1..]).value.0;
      AllocateAllAppend(reg1, a[1..], b);
      AppendStep(reg, a, b, name, reg1, rest, regA, more, regB);
    }
  }

  lemma AppendStep(reg: Registry, a: seq<string>, b: seq<string>, name: string, reg1: Registry,
                   rest: seq<string>, regA: Registry, more: seq<string>, regB: Registry)
    requires |a| > 0 && Allocate(reg, a[0]) == Success((name, reg1))
    requires AllocateAll(reg1, a[1..]) == Success((rest, regA))
    requires AllocateAll(reg1, a[1..] + b) == Success((rest + more, regB))
    ensures AllocateAll(reg, a) == Success(([name] + rest, regA))
    ensures AllocateAll(reg, a + b) == Success(([name] + rest + more, regB))
  {
    AllocateAllCons(reg, a, name, reg1, rest, regA);
    var ab := a + b;
    assert ab[0] == a[0] && ab[1..] == a[1..] + b;
    AllocateAllCons(reg, ab, name, reg1, rest + more, regB);
    assert [name] + (rest + more) == [name] + rest + more;
  }

  /** One allocation, then the rest. */
  lemma AllocateAllCons(reg: Registry, s: seq<string>, name: string, reg1: Registry,
                        rest: seq<string>, reg2: Registry)
    requires |s| > 0 && Allocate(reg, s[0]) == Success((name, reg1))
    requires AllocateAll(reg1, s[1..]) == Success((rest, reg2))
    ensures AllocateAll(reg, s) == Success(([name] + rest, reg2))
  {
  }

  function Repeat(s: string, n: nat): (r: seq<string>)
    ensures |r| == n && forall i :: 0 <= i < n ==> r[i] == s
  {
    seq(n, _ => s)
  }

  function Issued(base: string, lo: nat, hi: nat): (r: seq<string>)
    requires lo <= hi
    ensures |r| == hi - lo && forall i :: 0 <= i < hi - lo ==> r[i] == NameFor(base, lo + i)
  {
    seq(hi - lo, (i: int) requires 0 <= i => NameFor(base, lo + i))
  }

  /** A suffixed name is longer than its base, so it is never the base. */
  lemma SuffixedIsNotBase(base: string, k: nat)
    requires k > 0
    ensures NameFor(base, k) != base
  {
    assert |NameFor(base, k)| > |base|;
  }

  /** Continuing from a registry that holds only `base` with `m` names
      issued, `n` more requests for `base` return its next `n` names. */
  lemma {:induction false} RepeatedFrom(base: string, m: nat, n: nat)
    requires m >= 1
    ensures AllocateAll(map[base := Issued(base, 0, m)], Repeat(base, n))
            == Success((Issued(base, m, m + n), map[base := Issued(base, 0, m + n)]))
    decreases n
  {
    if n > 0 {
      AllocateNext(base, m);
      assert Repeat(base, n)[1..] == Repeat(base, n - 1);
      RepeatedFrom(base, m + 1, n - 1);
      assert [NameFor(base, m)] + Issued(base, m + 1, m + n) == Issued(base, m, m + n);
    }
  }

  /** With only `base` registered and `m` names issued from it, the next
      request for `base` returns its `m`-th name. */
  lemma AllocateNext(base: string, m: nat)
    requires m >= 1
    ensures Allocate(map[base := Issued(base, 0, m)], base)
            == Success((NameFor(base, m), map[base := Issued(base, 0, m + 1)]))
  {
    var reg := map[base := Issued(base, 0, m)];
    SuffixedIsNotBase(base, m);
    var reg1 := map[base := Issued(base, 0, m + 1)];
    assert Issued(base, 0, m) + [NameFor(base, m)] == Issued(base, 0, m + 1);
    assert Candidate(base, m) !in reg;
    assert reg[base := reg[base] + [Candidate(base, m)]] == reg1;
  }

  /** From a fresh registry, `n` requests for one base return `base`,
      `base_1`, ..., `base_{n-1}`: pairwise distinct, and always successful. */
  lemma RepeatedAllocation(base: string, n: nat)
    requires n >= 1
    ensures AllocateAll(map[], Repeat(base, n))
            == Success((Issued(base, 0, n), map[base := Issued(base, 0, n)]))
  {
    var rest := Repeat(base, n)[1..];
    assert rest == Repeat(base, n - 1);
    assert Allocate(map[], base) == Success((base, map[base := [base]]));
    assert [base] == Issued(base, 0, 1);
    RepeatedFrom(base, 1, n - 1);
    assert [base] + Issued(base, 1, n) == Issued(base, 0, n);
  }

  /** Three widgets of type "text" are named "text", "text_1", "text_2". */
  lemma ExampleThreeTexts()
    ensures AllocateAll(map[], ["text", "text", "text"]).Success?
    ensures AllocateAll(map[], ["text", "text", "text"]).value.0 == ["text", "text_1", "text_2"]
  {
    RepeatedAllocation("text", 3);
    assert Repeat("text", 3) == ["text", "text", "text"];
    assert NatToString(1) == "1" && NatToString(2) == "2";
    var names := Issued("text", 0, 3);
    assert names[1] == NameFor("text", 1) == "text_1";
    assert names[2] == NameFor("text", 2) == "text_2";
    assert names == ["text", "text_1", "text_2"];
  }

  /** Uniqueness is per base only: after "text" and "text", a request for
      "text_1" returns "text_1" a second time, because the collision test
      looks at base names, not at issued names. */
  lemma ExampleCrossBaseDuplicate()
    ensures AllocateAll(map[], ["text", "text", "text_1"]).Success?
    ensures AllocateAll(map[], ["text", "text", "text_1"]).value.0 == ["text", "text_1", "text_1"]
  {
    assert NatToString(1) == "1";
    var r1 := map["text" := ["text"]];
    var r2 := map["text" := ["text", "text_1"]];
    var r3 := map["text" := ["text", "text_1"], "text_1" := ["text_1"]];
    assert Allocate(map[], "text") == Success(("text", r1));
    assert Candidate("text", 1) == "text_1";
    assert r1["text"] + ["text_1"] == ["text", "text_1"];
    assert r1["text" := r1["text"] + ["text_1"]] == r2;
    assert Allocate(r1, "text") == Success(("text_1", r2));
    assert r2["text_1" := ["text_1"]] == r3;
    assert Allocate(r2, "text_1") == Success(("text_1", r3));
    assert ["text", "text", "text_1"][1..] == ["text", "text_1"];
    assert ["text", "text_1"][1..] == ["text_1"];
  }

  /** The failure path is reachable: once "text_1" is a base, the second
      request for "text" builds the candidate "text_1" and fails. */
  lemma ExampleCollision()
    ensures AllocateAll(map[], ["text_1", "text", "text"]).Failure?
  {
    assert NatToString(1) == "1";
    var r1 := map["text_1" := ["text_1"]];
    var r2 := map["text_1" := ["text_1"], "text" := ["text"]];
    assert Allocate(map[], "text_1") == Success(("text_1", r1));
    assert Allocate(r1, "text") == Success(("text", r2));
    assert Candidate("text", |r2["text"]|) == "text_1";
    assert Allocate(r2, "text").Failure?;
    assert ["text_1", "text", "text"][1..] == ["text", "text"];
    assert ["text", "text"][1..] == ["text"];
  }
}

=== FILE: properties.dfy ===
/** The property writers `Widget2Pydm` shares between its widget mappers:
    geometry, tool tip, PV channel, colors and text alignment. Each returns
    the element (or elements) it appends to the widget being written. */
module Properties {
  import opened Results
  import opened Strings
  import opened Screens
  import opened Xml

  /** `stdset="0"`: marks a property as PyDM's rather than Qt's. */
  const PyDMOnly: map<string, string> := map["stdset" := "0"]

  function PlainText(s: string): Option<Content> {
    Some(Plain(s))
  }

  /** `writeProperty(..., stdset="0")` with a plain-text value. */
  function PyDMProperty(name: string, tag: string, value: string): (e: Element)
    ensures |name| > 0 ==> PropertyName(e) == Some(name)
    ensures PropertyText(e) == Some(value) && Attribute(e, "stdset") == Some("0")
    ensures |e.children| == 1 && e.children[0].tag == tag
  {
    assert "name" !in PyDMOnly;
    Property(name, tag, PlainText(value), PyDMOnly)
  }

  /** `writeOpenProperty(..., stdset="0")` and the children written into
      it. */
  function PyDMOpenProperty(name: string, children: seq<Element>): (e: Element)
    ensures |name| > 0 ==> PropertyName(e) == Some(name)
    ensures Attribute(e, "stdset") == Some("0") && e.children == children
  {
    assert "name" !in PyDMOnly;
    OpenProperty(name, PyDMOnly, children)
  }

  /** A leaf holding `str(i)`. */
  function IntLeaf(tag: string, i: int): Element {
    Leaf(tag, PlainText(IntToString(i)))
  }

  /** The integer a leaf with tag `tag` holds. */
  function ReadInt(e: Element, tag: string): Option<int> {
    if e.tag == tag && e.text.Some? && e.text.value.Plain? then ParseInt(e.text.value.text) else None
  }

  lemma IntLeafRoundTrip(tag: string, i: int)
    ensures ReadInt(IntLeaf(tag, i), tag) == Some(i)
  {
    IntRoundTrip(i);
  }

  // ---------------------------------------------------------------------
  // Geometry

  /** `write_geometry`: a `geometry` property holding a `rect` with the
      four numbers, each read back unchanged. */
  function GeometryProperty(g: Geometry): (e: Element)
    ensures PropertyName(e) == Some("geometry")
    ensures ReadGeometry(e) == Some(g)
  {
    IntLeafRoundTrip("x", g.x);
    IntLeafRoundTrip("y", g.y);
    IntLeafRoundTrip("width", g.width);
    IntLeafRoundTrip("height", g.height);
    var rect := OpenTag("rect", "", "", map[]).(children :=
      [IntLeaf("x", g.x), IntLeaf("y", g.y), IntLeaf("width", g.width), IntLeaf("height", g.height)]);
    OpenProperty("geometry", map[], [rect])
  }

  function ReadGeometry(e: Element): Option<Geometry> {
    if e.tag == "property" && |e.children| == 1 && e.children[0].tag == "rect" && |e.children[0].children| == 4 then
      var k := e.children[0].children;
      match (ReadInt(k[0], "x"), ReadInt(k[1], "y"), ReadInt(k[2], "width"), ReadInt(k[3], "height"))
      case (Some(x), Some(y), Some(w), Some(h)) => Some(Geometry(x, y, w, h))
      case _ => None
    else None
  }

  // ---------------------------------------------------------------------
  // Tool tip

  /** `write_tooltip`: a `toolTip` property; a missing tip leaves its
      string without text. */
  function Tooltip(tip: Option<string>): (e: Element)
    ensures PropertyName(e) == Some("toolTip")
    ensures PropertyText(e) == tip
  {
    OpenProperty("toolTip", map[], [Leaf("string", if tip.Some? then PlainText(tip.value) else None)])
  }

  function TooltipOf(tip: string): (e: Element)
    ensures PropertyName(e) == Some("toolTip") && PropertyText(e) == Some(tip)
  {
    Tooltip(Some(tip))
  }

  // ---------------------------------------------------------------------
  // PV channel

  /** The Channel Access protocol prefix PyDM expects on a PV address. */
  const ChannelPrefix: string := "ca://"

  /** `write_channel`: a PyDM `channel` property holding the prefixed PV. */
  function ChannelProperty(pv: string): (e: Element)
    ensures PropertyName(e) == Some("channel") && Attribute(e, "stdset") == Some("0")
    ensures ReadChannel(e) == Some(pv)
  {
    var text := ChannelPrefix + pv;
    assert StartsWith(text, ChannelPrefix) && text[|ChannelPrefix|..] == pv;
    PyDMProperty("channel", "string", text)
  }

  /** The PV of a channel property, prefix removed. */
  function ReadChannel(e: Element): Option<string> {
    match PropertyText(e)
    case Some(t) => if StartsWith(t, ChannelPrefix) then Some(t[|ChannelPrefix|..]) else None
    case None => None
  }

  /** The keys `get_channel` consults, in loop order. */
  const ChannelSources: seq<string> := ["chan", "rdbk", "ctrl"]

  /** The loop of `get_channel`: every key present overwrites the value
      found so far. */
  function ScanKeys(m: map<string, string>, keys: seq<string>, found: Option<string>): Option<string>
    decreases |keys|
  {
    if |keys| == 0 then found
    else ScanKeys(m, keys[1..], if keys[0] in m then Some(m[keys[0]]) else found)
  }

  /** The position of the last key present in `m`, or -1. */
  function LastPresent(m: map<string, string>, keys: seq<string>): (r: int)
    ensures -1 <= r < |keys|
    ensures r >= 0 ==> keys[r] in m
    ensures forall j :: r < j < |keys| ==> keys[j] !in m
    decreases |keys|
  {
    if |keys| == 0 then -1
    else if keys[|keys| - 1] in m then |keys| - 1
    else LastPresent(m, keys[..|keys| - 1])
  }

  /** The three properties of `LastPresent` determine it. */
  lemma LastPresentUnique(m: map<string, string>, keys: seq<string>, r: int)
    requires -1 <= r < |keys|
    requires r >= 0 ==> keys[r] in m
    requires forall j :: r < j < |keys| ==> keys[j] !in m
    ensures r == LastPresent(m, keys)
  {
  }

  /** The loop keeps the value of the last key present, or what it started
      with when no key is present. */
  lemma {:induction false} ScanFindsLast(m: map<string, string>, keys: seq<string>, found: Option<string>)
    ensures ScanKeys(m, keys, found)
            == (var i := LastPresent(m, keys); if i >= 0 then Some(m[keys[i]]) else found)
    decreases |keys|
  {
    if |keys| > 0 {
      var found1 := if keys[0] in m then Some(m[keys[0]]) else found;
      var rest := keys[1..];
      ScanFindsLast(m, rest, found1);
      var i' := LastPresent(m, rest);
      if i' >= 0 {
        LastPresentUnique(m, keys, i' + 1);
        assert keys[i' + 1] == rest[i'];
      } else if keys[0] in m {
        LastPresentUnique(m, keys, 0);
      } else {
        LastPresentUnique(m, keys, -1);
      }
    }
  }

  /** `get_channel`: the value of the last of "chan", "rdbk", "ctrl" that is
      present, with MEDM's `$(macro)` parentheses turned into PyDM's
      `${macro}` braces. */
  function GetChannel(m: map<string, string>): (r: Option<string>)
    ensures r.None? <==> "chan" !in m && "rdbk" !in m && "ctrl" !in m
    ensures "ctrl" in m ==> r == Some(Braces(m["ctrl"]))
    ensures "ctrl" !in m && "rdbk" in m ==> r == Some(Braces(m["rdbk"]))
    ensures "ctrl" !in m && "rdbk" !in m && "chan" in m ==> r == Some(Braces(m["chan"]))
  {
    ScanFindsLast(m, ChannelSources, None);
    LastPresentSources(m);
    match ScanKeys(m, ChannelSources, None)
    case None => None
    case Some(pv) => Some(Braces(pv))
  }

  lemma LastPresentSources(m: map<string, string>)
    ensures "ctrl" in m ==> LastPresent(m, ChannelSources) == 2
    ensures "ctrl" !in m && "rdbk" in m ==> LastPresent(m, ChannelSources) == 1
    ensures "ctrl" !in m && "rdbk" !in m && "chan" in m ==> LastPresent(m, ChannelSources) == 0
    ensures "ctrl" !in m && "rdbk" !in m && "chan" !in m ==> LastPresent(m, ChannelSources) == -1
  {
    var k := ChannelSources;
    assert k[0] == "chan" && k[1] == "rdbk" && k[2] == "ctrl";
    if "ctrl" in m {
      LastPresentUnique(m, k, 2);
    } else if "rdbk" in m {
      LastPresentUnique(m, k, 1);
    } else if "chan" in m {
      LastPresentUnique(m, k, 0);
    } else {
      LastPresentUnique(m, k, -1);
    }
  }

  /** The channel a PV-bound mapper needs: `get_channel` on the group under
      `key` ("control" or "monitor"). Python raises when the group is
      missing (KeyError), when it is a plain string (every path then fails),
      and when no channel key is present (`"ca://" + None`). */
  function RequiredChannel(contents: map<string, Attr>, key: string): (r: Result<string>)
    ensures r.Success? <==> key in contents && contents[key].Group? && GetChannel(contents[key].entries).Some?
    ensures r.Success? ==> r.value == GetChannel(contents[key].entries).value
  {
    if key !in contents then Failure("missing " + key)
    else match contents[key]
      case Text(_) => Failure(key + " is not a group")
      case Group(m) =>
        match GetChannel(m)
        case None => Failure("no channel in " + key)
        case Some(pv) => Success(pv)
  }

  // ---------------------------------------------------------------------
  // Colors

  /** `write_color_element`: nothing for a missing color, else one `color`
      element carrying the extra attributes; `ColorRoundTrip` reads the
      color back from it. */
  function ColorElements(c: Option<Color>, extra: map<string, string>): (r: seq<Element>)
    ensures c.None? <==> r == []
    ensures c.Some? ==> |r| == 1 && r[0].tag == "color"
    ensures c.Some? ==> forall k :: k in extra ==> Attribute(r[0], k) == Some(extra[k])
  {
    match c
    case None => []
    case Some(rgb) =>
      [OpenTag("color", "", "", extra).(children :=
        [IntLeaf("red", rgb.r), IntLeaf("green", rgb.g), IntLeaf("blue", rgb.b)])]
  }

  /** The color element's components read back as the color. */
  lemma ColorRoundTrip(c: Color, extra: map<string, string>)
    ensures ReadColor(ColorElements(Some(c), extra)[0]) == Some(c)
  {
    IntLeafRoundTrip("red", c.r);
    IntLeafRoundTrip("green", c.g);
    IntLeafRoundTrip("blue", c.b);
  }

  /** `children` is what `write_color_element` writes for `c`: nothing for
      no color, else one element reading back as `c`. */
  predicate HoldsColor(children: seq<Element>, c: Option<Color>) {
    && (c.None? <==> children == [])
    && (c.Some? ==> |children| == 1 && ReadColor(children[0]) == c)
  }

  lemma ColorElementsHold(c: Option<Color>, extra: map<string, string>)
    ensures HoldsColor(ColorElements(c, extra), c)
  {
    if c.Some? {
      ColorRoundTrip(c.value, extra);
    }
  }

  function ReadColor(e: Element): Option<Color> {
    if e.tag == "color" && |e.children| == 3 then
      match (ReadInt(e.children[0], "red"), ReadInt(e.children[1], "green"), ReadInt(e.children[2], "blue"))
      case (Some(r), Some(g), Some(b)) =>
        if 0 <= r < 256 && 0 <= g < 256 && 0 <= b < 256 then Some(Color(r, g, b)) else None
      case _ => None
    else None
  }

  // ---------------------------------------------------------------------
  // Text alignment

  /** The alignment MEDM assumes when a block gives none. */
  const DefaultAlignment: string := "horiz. left"

  /** The Qt alignment flags for a MEDM alignment name. */
  function AlignmentFlags(align: string): Option<string> {
    if align == "horiz. left" then Some("Qt::AlignLeading|Qt::AlignLeft|Qt::AlignVCenter")
    else if align == "horiz. centered" then Some("Qt::AlignCenter")
    else if align == "horiz. right" then Some("Qt::AlignRight|Qt::AlignTrailing|Qt::AlignVCenter")
    else if align == "justify" then Some("Qt::AlignJustify|Qt::AlignVCenter")
    else None
  }

  /** The MEDM alignment name for Qt alignment flags. */
  function AlignmentName(flags: string): Option<string> {
    if flags == "Qt::AlignLeading|Qt::AlignLeft|Qt::AlignVCenter" then Some("horiz. left")
    else if flags == "Qt::AlignCenter" then Some("horiz. centered")
    else if flags == "Qt::AlignRight|Qt::AlignTrailing|Qt::AlignVCenter" then Some("horiz. right")
    else if flags == "Qt::AlignJustify|Qt::AlignVCenter" then Some("justify")
    else None
  }

  /** The two tables are inverse to each other, so the flags identify the
      MEDM alignment. */
  lemma AlignmentRoundTrip(align: string, flags: string)
    ensures AlignmentFlags(align) == Some(flags) <==> AlignmentName(flags) == Some(align)
  {
    if AlignmentFlags(align) == Some(flags) {
      NameOfFlags(align);
    }
    if AlignmentName(flags) == Some(align) {
      FlagsOfName(flags);
    }
  }

  lemma NameOfFlags(align: string)
    requires AlignmentFlags(align).Some?
    ensures AlignmentName(AlignmentFlags(align).value) == Some(align)
  {
    if align == "horiz. left" {
    } else if align == "horiz. centered" {
    } else if align == "horiz. right" {
    } else {
    }
  }

  lemma FlagsOfName(flags: string)
    requires AlignmentName(flags).Some?
    ensures AlignmentFlags(AlignmentName(flags).value) == Some(flags)
  {
    if flags == "Qt::AlignLeading|Qt::AlignLeft|Qt::AlignVCenter" {
    } else if flags == "Qt::AlignCenter" {
    } else if flags == "Qt::AlignRight|Qt::AlignTrailing|Qt::AlignVCenter" {
    } else {
    }
  }

  /** `writePropertyTextAlignment`: an `alignment` property of tag `set`,
      defaulting to "horiz. left"; an unknown name (KeyError) or a group
      where a name belongs fails. */
  function AlignmentProperty(contents: map<string, Attr>): (r: Result<Element>)
    ensures r.Success? <==>
              "align" !in contents || (contents["align"].Text? && AlignmentFlags(contents["align"].text).Some?)
    ensures r.Success? ==>
              && PropertyName(r.value) == Some("alignment")
              && |r.value.children| == 1 && r.value.children[0].tag == "set"
              && PropertyText(r.value).Some?
              && AlignmentName(PropertyText(r.value).value)
                 == Some(if "align" in contents then contents["align"].text else DefaultAlignment)
  {
    var align := if "align" in contents then contents["align"] else Text(DefaultAlignment);
    match align
    case Group(_) => Failure("align is not a string")
    case Text(name) =>
      match AlignmentFlags(name)
      case None => Failure("unknown alignment " + name)
      case Some(flags) =>
        AlignmentRoundTrip(name, flags);
        Success(Property("alignment", "set", PlainText(flags), map[]))
  }
}

=== FILE: results.dfy ===
/** Failure-compatible wrappers shared by the whole model.

    Python's `None` becomes `Option.None`; every exception the translator can
    raise (a `KeyError` from a lookup table, a `TypeError` from concatenating
    `None`, the `ValueError` of the element writer) becomes `Result.Failure`
    carrying a short reason. A failure anywhere aborts the whole translation,
    exactly as the uncaught exception does in the program. */
module Results {

  datatype Option<+T> = None | Some(value: T) {

    /** The value, or `default` when absent (Python's `d.get(k, default)`). */
    function GetOr(default: T): T {
      match this
      case Some(v) => v
      case None => default
    }

    predicate IsFailure() {
      None?
    }

    function PropagateFailure<U>(): Option<U>
      requires None?
    {
      None
    }

    function Extract(): T
      requires Some?
    {
      value
    }
  }

  datatype Result<+T> = Success(value: T) | Failure(error: string) {

    predicate IsFailure() {
      Failure?
    }

    function PropagateFailure<U>(): Result<U>
      requires Failure?
    {
      Failure(error)
    }

    function Extract(): T
      requires Success?
    {
      value
    }
  }
}

=== FILE: rules.dfy ===
/** MEDM's "dynamic attribute" (a visibility condition over up to four
    channels) translated into one PyDM rule that drives the widget's
    `Visible` property: `interpretAdlDynamicAttribute` in
    src/adl2pydm/output_handler.py. */
module Rules {
  import opened Results
  import opened Strings

  /** One channel of a rule; a channel triggers re-evaluation when its
      address is non-empty. */
  datatype RuleChannel = RuleChannel(channel: string, trigger: bool)

  /** A PyDM rule. `channels` is `None` when the rule dictionary has no
      `channels` key at all. */
  datatype Rule = Rule(name: string, property: string, channels: Option<seq<RuleChannel>>, expression: string)

  /** The channel keys of a dynamic attribute, in positional order. */
  const ChannelKeys: seq<string> := ["chan", "chanB", "chanC", "chanD"]

  /** The visibility mode used when the attribute has no `vis` key. */
  const DefaultVis: string := "if not zero"

  function MakeChannel(raw: string): (c: RuleChannel)
    ensures c.channel == Braces(raw)
    ensures c.trigger <==> |raw| > 0
  {
    var pv := Braces(raw);
    RuleChannel(pv, |pv| > 0)
  }

  /** The channels named by `keys`, taken in order up to the first key the
      attribute lacks; later keys are ignored even when present. */
  function Collect(attr: map<string, string>, keys: seq<string>): (r: seq<RuleChannel>)
    ensures |r| <= |keys|
    ensures forall i :: 0 <= i < |r| ==> keys[i] in attr && r[i] == MakeChannel(attr[keys[i]])
    ensures |r| < |keys| ==> keys[|r|] !in attr
    decreases |keys|
  {
    if |keys| == 0 || keys[0] !in attr then []
    else [MakeChannel(attr[keys[0]])] + Collect(attr, keys[1..])
  }

  function CollectChannels(attr: map<string, string>): seq<RuleChannel> {
    Collect(attr, ChannelKeys)
  }

  /** Collection is positional: there are channels exactly when `chan` is
      present, so without it there are none even when `chanB` .. `chanD`
      are. */
  lemma ChannelsIffPrimary(attr: map<string, string>)
    ensures |CollectChannels(attr)| == 0 <==> "chan" !in attr
  {
    var r := CollectChannels(attr);
    if |r| > 0 {
      assert ChannelKeys[0] in attr;
    }
  }

  /** The visibility mode, defaulting to "if not zero". */
  function VisMode(attr: map<string, string>): string {
    if "vis" in attr then attr["vis"] else DefaultVis
  }

  predicate KnownVis(vis: string) {
    vis == "if zero" || vis == "if not zero" || vis == "calc"
  }

  /** The `visibility_calc` table: a comparison suffix for the two zero
      tests, the `calc` entry itself (possibly absent) for "calc", and a
      lookup failure for any other mode. */
  function VisibilityCalc(attr: map<string, string>): (r: Result<Option<string>>)
    ensures r.Failure? <==> !KnownVis(VisMode(attr))
    ensures r.Success? && VisMode(attr) != "calc" ==> r.value.Some? && |r.value.value| == 5
    ensures VisMode(attr) == "if zero" ==> r == Success(Some(" == 0"))
    ensures VisMode(attr) == "if not zero" ==> r == Success(Some(" != 0"))
    ensures VisMode(attr) == "calc" ==> r == Success(if "calc" in attr then Some(attr["calc"]) else None)
  {
    var vis := VisMode(attr);
    if vis == "if zero" then Success(Some(" == 0"))
    else if vis == "if not zero" then Success(Some(" != 0"))
    else if vis == "calc" then Success(if "calc" in attr then Some(attr["calc"]) else None)
    else Failure("unknown visibility mode: " + vis)
  }

  /** The literal substitutions applied to every expression, in the order
      Python 3 iterates the `exchanges` dictionary. */
  const Exchanges: seq<(string, string)> :=
    [("A", "ch[0]"), ("B", "ch[1]"), ("C", "ch[2]"), ("D", "ch[3]"), ("#", "!="), ("||", "|")]

  predicate NonEmptyPatterns(ex: seq<(string, string)>) {
    forall i :: 0 <= i < |ex| ==> |ex[i].0| > 0
  }

  /** `calc = calc.replace(k, v)` for each pair in order. */
  function ApplyExchanges(s: string, ex: seq<(string, string)>): string
    requires NonEmptyPatterns(ex)
    decreases |ex|
  {
    if |ex| == 0 then s
    else ApplyExchanges(ReplaceAll(s, ex[0].0, ex[0].1), ex[1..])
  }

  /** The MEDM calc expression rewritten into PyDM's dialect. */
  function Rewrite(s: string): string {
    ApplyExchanges(s, Exchanges)
  }

  /** The expression before the rewrite: the `calc` entry when there is
      one, else `"ch[0]"` followed by the visibility suffix when there is a
      channel. It fails for an unknown `vis`, and where the program meets
      `None`: concatenating it in mode "calc", or rewriting it when there is
      neither a `calc` entry nor a channel (that is, no `chan` key). */
  function SourceExpression(attr: map<string, string>): (r: Result<string>)
    ensures r.Failure? <==>
              || !KnownVis(VisMode(attr))
              || ("calc" !in attr && ("chan" !in attr || VisMode(attr) == "calc"))
    ensures r.Success? && "calc" in attr ==> r.value == attr["calc"]
    ensures r.Success? && "calc" !in attr && VisMode(attr) == "if zero" ==> r.value == "ch[0] == 0"
    ensures r.Success? && "calc" !in attr && VisMode(attr) == "if not zero" ==> r.value == "ch[0] != 0"
  {
    var visibility :- VisibilityCalc(attr);
    ChannelsIffPrimary(attr);
    if "calc" in attr then Success(attr["calc"])
    else if |CollectChannels(attr)| == 0 then Failure("no calc expression to rewrite")
    else if visibility.Some? then Success("ch[0]" + visibility.value)
    else Failure("cannot concatenate a missing calc expression")
  }

  /** `interpretAdlDynamicAttribute`: a one-element list holding rule
      `rule_0` on `Visible`, with a `channels` entry only when a channel was
      collected; fails exactly when the source expression does. */
  function Interpret(attr: map<string, string>): (r: Result<seq<Rule>>)
    ensures r.Failure? <==> SourceExpression(attr).Failure?
    ensures r.Success? ==>
              && |r.value| == 1
              && r.value[0].name == "rule_0"
              && r.value[0].property == "Visible"
              && (r.value[0].channels.Some? <==> CollectChannels(attr) != [])
              && (r.value[0].channels.Some? ==> r.value[0].channels.value == CollectChannels(attr))
  {
    var channels := CollectChannels(attr);
    var expression :- SourceExpression(attr);
    Success([Rule("rule_0", "Visible", if |channels| > 0 then Some(channels) else None, Rewrite(expression))])
  }

  // ---------------------------------------------------------------------
  // Properties of the rewrite

  /** An expression with none of the placeholder letters, `#` or `|` passes
      the pipeline unchanged. */
  lemma {:induction false} ApplyExchangesIdentity(s: string, ex: seq<(string, string)>)
    requires NonEmptyPatterns(ex)
    requires forall i :: 0 <= i < |ex| ==> ex[i].0[0] !in s
    ensures ApplyExchanges(s, ex) == s
    decreases |ex|
  {
    if |ex| > 0 {
      ReplaceAllNoFirstChar(s, ex[0].0, ex[0].1);
      ApplyExchangesIdentity(s, ex[1..]);
    }
  }

  /** `s` holds none of the characters the rewrite acts on. */
  predicate Untouched(s: string) {
    'A' !in s && 'B' !in s && 'C' !in s && 'D' !in s && '#' !in s && '|' !in s
  }

  lemma RewriteIdentity(s: string)
    requires Untouched(s)
    ensures Rewrite(s) == s
  {
    ApplyExchangesIdentity(s, Exchanges);
  }

  /** A character absent from the input and from every replacement text is
      absent from the pipeline's output. */
  lemma {:induction false} ApplyExchangesAbsent(s: string, ex: seq<(string, string)>, x: char)
    requires NonEmptyPatterns(ex)
    requires x !in s
    requires forall i :: 0 <= i < |ex| ==> x !in ex[i].1
    ensures x !in ApplyExchanges(s, ex)
    decreases |ex|
  {
    if |ex| > 0 {
      var t := ReplaceAll(s, ex[0].0, ex[0].1);
      if x in t {
        ReplaceAllChars(s, ex[0].0, ex[0].1, x);
      }
      ApplyExchangesAbsent(t, ex[1..], x);
    }
  }

  /** After the rewrite no positional placeholder `A` .. `D` and no `#`
      remains: each is replaced at its step, and no later replacement text
      brings one back. */
  lemma RewriteRemovesPlaceholders(s: string)
    ensures var r := Rewrite(s);
            'A' !in r && 'B' !in r && 'C' !in r && 'D' !in r && '#' !in r
  {
    RewriteSteps(s);
    var s1 := ReplaceAll(s, "A", "ch[0]");
    ReplaceCharRemoves(s, 'A', "ch[0]");
    var s2 := ReplaceAll(s1, "B", "ch[1]");
    ReplaceCharRemoves(s1, 'B', "ch[1]");
    ReplaceAllAbsent(s1, "B", "ch[1]", 'A');
    var s3 := ReplaceAll(s2, "C", "ch[2]");
    ReplaceCharRemoves(s2, 'C', "ch[2]");
    ReplaceAllAbsent(s2, "C", "ch[2]", 'A');
    ReplaceAllAbsent(s2, "C", "ch[2]", 'B');
    var s4 := ReplaceAll(s3, "D", "ch[3]");
    ReplaceCharRemoves(s3, 'D', "ch[3]");
    KeepsAbsent(s3, "D", "ch[3]");
    var s5 := ReplaceAll(s4, "#", "!=");
    ReplaceCharRemoves(s4, '#', "!=");
    KeepsAbsent(s4, "#", "!=");
    ReplaceAllAbsent(s4, "#", "!=", 'D');
    var s6 := ReplaceAll(s5, "||", "|");
    KeepsAbsent(s5, "||", "|");
    ReplaceAllAbsent(s5, "||", "|", 'D');
    ReplaceAllAbsent(s5, "||", "|", '#');
  }

  /** A later step whose replacement text has no `A`, `B` or `C` keeps them
      out once they are gone. */
  lemma KeepsAbsent(s: string, pat: string, rep: string)
    requires |pat| > 0 && 'A' !in s && 'B' !in s && 'C' !in s
    requires 'A' !in rep && 'B' !in rep && 'C' !in rep
    ensures var r := ReplaceAll(s, pat, rep);
            'A' !in r && 'B' !in r && 'C' !in r
  {
    ReplaceAllAbsent(s, pat, rep, 'A');
    ReplaceAllAbsent(s, pat, rep, 'B');
    ReplaceAllAbsent(s, pat, rep, 'C');
  }

  /** What the rule's expression is: the rewritten `calc` when one is given
      (even alongside channels), otherwise a comparison of the first channel
      with zero, which the rewrite leaves as it is. */
  lemma InterpretExpression(attr: map<string, string>)
    requires Interpret(attr).Success?
    ensures "calc" in attr ==> Interpret(attr).value[0].expression == Rewrite(attr["calc"])
    ensures "calc" !in attr && VisMode(attr) == "if zero" ==>
              Interpret(attr).value[0].expression == "ch[0] == 0"
    ensures "calc" !in attr && VisMode(attr) == "if not zero" ==>
              Interpret(attr).value[0].expression == "ch[0] != 0"
  {
    var e := SourceExpression(attr).value;
    InterpretRewrites(attr);
    if "calc" !in attr && (VisMode(attr) == "if zero" || VisMode(attr) == "if not zero") {
      ComparisonUnchanged(e);
    }
  }

  lemma InterpretRewrites(attr: map<string, string>)
    requires Interpret(attr).Success?
    ensures Interpret(attr).value[0].expression == Rewrite(SourceExpression(attr).value)
  {
  }

  /** The synthesised comparisons contain nothing the rewrite touches. */
  lemma ComparisonUnchanged(e: string)
    requires e == "ch[0] == 0" || e == "ch[0] != 0"
    ensures Rewrite(e) == e
  {
    RewriteIdentity(e);
  }

  /** The rule expression never keeps a placeholder letter or `#`. */
  lemma InterpretNoPlaceholders(attr: map<string, string>)
    requires Interpret(attr).Success?
    ensures var e := Interpret(attr).value[0].expression;
            'A' !in e && 'B' !in e && 'C' !in e && 'D' !in e && '#' !in e
  {
    var channels := CollectChannels(attr);
    if "calc" in attr {
      RewriteRemovesPlaceholders(attr["calc"]);
    } else {
      var v := VisibilityCalc(attr).value.value;
      RewriteRemovesPlaceholders("ch[0]" + v);
    }
  }

  // ---------------------------------------------------------------------
  // Worked examples
  //
  // Each example is proved for the expression followed by any text `t` the
  // rewrite leaves alone, one replacement step per lemma; the literal case
  // is the instance `t == ""`. Stating the steps over `... + t` keeps the
  // solver from evaluating the recursive replacement on literal text.

  /** Unfolds the pipeline into its six steps. */
  lemma RewriteSteps(s: string)
    ensures Rewrite(s) ==
      ReplaceAll(ReplaceAll(ReplaceAll(ReplaceAll(ReplaceAll(ReplaceAll(
        s, "A", "ch[0]"), "B", "ch[1]"), "C", "ch[2]"), "D", "ch[3]"), "#", "!="), "||", "|")
  {
    var ex := Exchanges;
    assert ex[1..][1..][1..][1..][1..][1..] == [];
  }

  lemma BracesOfMacro(s: string, name: char)
    requires s == ['(', name, ')'] && name != '(' && name != ')'
    ensures Braces(s) == ['{', name, '}']
  {
    assert |Braces(s)| == 3;
    assert Braces(s)[0] == BraceChar('(');
    assert Braces(s)[1] == BraceChar(name);
    assert Braces(s)[2] == BraceChar(')');
  }

  /** `{"chan": "(P)", "vis": "if not zero"}`: one triggering channel `{P}`
      compared with zero. */
  lemma ExampleIfNotZero(attr: map<string, string>)
    requires attr == map["chan" := "(P)", "vis" := "if not zero"]
    ensures Interpret(attr)
            == Success([Rule("rule_0", "Visible", Some([RuleChannel("{P}", true)]), "ch[0] != 0")])
  {
    BracesOfMacro(attr["chan"], 'P');
    assert "chanB" !in attr;
    assert CollectChannels(attr) == [RuleChannel("{P}", true)];
    InterpretExpression(attr);
  }

  /** One replacement step on `before + t`, where `before` holds one
      occurrence of the pattern and neither the rest of `before` nor `t`
      holds its first character. */
  lemma ReplaceStep(x: string, pat: string, rep: string, y: string, t: string, before: string, after: string)
    requires |pat| > 0 && pat[0] !in x && pat[0] !in y && pat[0] !in t
    requires before == x + pat + y && after == x + rep + y
    ensures ReplaceAll(before + t, pat, rep) == after + t
  {
    ReplaceBetween(x, pat, rep, y + t);
    assert x + pat + (y + t) == before + t;
    assert x + rep + (y + t) == after + t;
  }

  // The steps below are instances of `ReplaceStep`, one lemma each so that
  // every obligation about concrete literals is proved on its own; taken
  // together in one proof they are too costly for the verifier.

  lemma CalcStepA(t: string)
    requires Untouched(t)
    ensures ReplaceAll("A#B||C" + t, "A", "ch[0]") == "ch[0]#B||C" + t
  {
    ReplaceStep("", "A", "ch[0]", "#B||C", t, "A#B||C", "ch[0]#B||C");
  }

  lemma CalcStepB(t: string)
    requires Untouched(t)
    ensures ReplaceAll("ch[0]#B||C" + t, "B", "ch[1]") == "ch[0]#ch[1]||C" + t
  {
    ReplaceStep("ch[0]#", "B", "ch[1]", "||C", t, "ch[0]#B||C", "ch[0]#ch[1]||C");
  }

  lemma CalcStepC(t: string)
    requires Untouched(t)
    ensures ReplaceAll("ch[0]#ch[1]||C" + t, "C", "ch[2]") == "ch[0]#ch[1]||ch[2]" + t
  {
    ReplaceStep("ch[0]#ch[1]||", "C", "ch[2]", "", t, "ch[0]#ch[1]||C", "ch[0]#ch[1]||ch[2]");
  }

  lemma CalcStepD(t: string)
    requires Untouched(t)
    ensures ReplaceAll("ch[0]#ch[1]||ch[2]" + t, "D", "ch[3]") == "ch[0]#ch[1]||ch[2]" + t
  {
    ReplaceAllNoFirstChar("ch[0]#ch[1]||ch[2]" + t, "D", "ch[3]");
  }

  lemma CalcStepHash(t: string)
    requires Untouched(t)
    ensures ReplaceAll("ch[0]#ch[1]||ch[2]" + t, "#", "!=") == "ch[0]!=ch[1]||ch[2]" + t
  {
    ReplaceStep("ch[0]", "#", "!=", "ch[1]||ch[2]", t, "ch[0]#ch[1]||ch[2]", "ch[0]!=ch[1]||ch[2]");
  }

  lemma CalcStepBars(t: string)
    requires Untouched(t)
    ensures ReplaceAll("ch[0]!=ch[1]||ch[2]" + t, "||", "|") == "ch[0]!=ch[1]|ch[2]" + t
  {
    ReplaceStep("ch[0]!=ch[1]", "||", "|", "ch[2]", t, "ch[0]!=ch[1]||ch[2]", "ch[0]!=ch[1]|ch[2]");
  }

  /** `A#B||C`, followed by any text the rewrite leaves alone, is rewritten
      letters first, then `#` and `||`. */
  lemma {:induction false} ExampleCalcFollowedBy(t: string)
    requires Untouched(t)
    ensures Rewrite("A#B||C" + t) == "ch[0]!=ch[1]|ch[2]" + t
  {
    RewriteSteps("A#B||C" + t);
    CalcStepA(t);
    CalcStepB(t);
    CalcStepC(t);
    CalcStepD(t);
    CalcStepHash(t);
    CalcStepBars(t);
  }

  /** `A#B||C` becomes `ch[0]!=ch[1]|ch[2]`. */
  lemma ExampleCalc()
    ensures Rewrite("A#B||C") == "ch[0]!=ch[1]|ch[2]"
  {
    ExampleCalcFollowedBy("");
    assert "A#B||C" + "" == "A#B||C";
    assert "ch[0]!=ch[1]|ch[2]" + "" == "ch[0]!=ch[1]|ch[2]";
  }

  /** `{"calc": "A#B||C", "chan": "(X)"}`: the explicit calc wins over
      synthesis, while `chan` still supplies the rule's one channel. */
  lemma ExampleCalcWithChannel(attr: map<string, string>)
    requires attr == map["calc" := "A#B||C", "chan" := "(X)"]
    ensures Interpret(attr)
            == Success([Rule("rule_0", "Visible", Some([RuleChannel("{X}", true)]), "ch[0]!=ch[1]|ch[2]")])
  {
    BracesOfMacro(attr["chan"], 'X');
    assert "chanB" !in attr && "vis" !in attr;
    assert CollectChannels(attr) == [RuleChannel("{X}", true)];
    InterpretExpression(attr);
    ExampleCalc();
  }

  /** Lower-case operands are not placeholders and pass unchanged; this is
      the gap the program's own FIXME notes. */
  lemma ExampleLowerCaseOperand()
    ensures Rewrite("a==0") == "a==0"
  {
    RewriteIdentity("a==0");
  }

  // Instances of `ReplaceStep`, split for the same reason as the calc steps.
  lemma LiteralStepA(t: string)
    requires Untouched(t)
    ensures ReplaceAll("ABS" + t, "A", "ch[0]") == "ch[0]BS" + t
  {
    ReplaceStep("", "A", "ch[0]", "BS", t, "ABS", "ch[0]BS");
  }

  lemma LiteralStepB(t: string)
    requires Untouched(t)
    ensures ReplaceAll("ch[0]BS" + t, "B", "ch[1]") == "ch[0]ch[1]S" + t
  {
    ReplaceStep("ch[0]", "B", "ch[1]", "S", t, "ch[0]BS", "ch[0]ch[1]S");
  }

  /** The substitution is literal, not token-aware: upper-case letters inside
      a longer word are replaced too. */
  lemma {:induction false} ExampleLiteralSubstitution(t: string)
    requires Untouched(t)
    ensures Rewrite("ABS" + t) == "ch[0]ch[1]S" + t
  {
    RewriteSteps("ABS" + t);
    LiteralStepA(t);
    LiteralStepB(t);
    LiteralStepsRest(t);
  }

  /** The last four steps leave `ch[0]ch[1]S` and the tail alone. */
  lemma LiteralStepsRest(t: string)
    requires Untouched(t)
    ensures var u := "ch[0]ch[1]S" + t;
            ReplaceAll(ReplaceAll(ReplaceAll(ReplaceAll(u, "C", "ch[2]"), "D", "ch[3]"), "#", "!="), "||", "|") == u
  {
    var u := "ch[0]ch[1]S" + t;
    ReplaceAllNoFirstChar(u, "C", "ch[2]");
    ReplaceAllNoFirstChar(u, "D", "ch[3]");
    ReplaceAllNoFirstChar(u, "#", "!=");
    ReplaceAllNoFirstChar(u, "||", "|");
  }
}

=== FILE: screens.dfy ===
/** The parsed MEDM screen the translator consumes: a `Screen` with its
    ordered top-level `Block`s. Produced by the .adl parser, which is not
    part of this model; the translator only reads it. */
module Screens {
  import opened Results

  type Byte = x: int | 0 <= x < 256

  datatype Color = Color(r: Byte, g: Byte, b: Byte)

  /** Position and size, kept verbatim (they may be negative or zero). */
  datatype Geometry = Geometry(x: int, y: int, width: int, height: int)

  /** A value in a block's `contents`: a plain string (`"align"`,
      `"image name"`, `"press_msg"`) or a group of string entries
      (`"control"`, `"monitor"`, `"basic attribute"`,
      `"dynamic attribute"`). */
  datatype Attr = Text(text: string) | Group(entries: map<string, string>)

  /** One MEDM widget. `symbol` is its MEDM type ("text", "rectangle",
      "composite", ...); `widgets` holds the children of a composite. */
  datatype Block = Block(
    symbol: string,
    geometry: Geometry,
    color: Option<Color>,
    backgroundColor: Option<Color>,
    title: string,
    contents: map<string, Attr>,
    widgets: seq<Block>)

  datatype Screen = Screen(
    title: string,
    givenFilename: string,
    geometry: Geometry,
    color: Option<Color>,
    backgroundColor: Option<Color>,
    widgets: seq<Block>)

  /** The number of blocks in a forest, composites counted with their
      children; it bounds the translator's recursion. */
  function ForestSize(bs: seq<Block>): nat
    decreases bs
  {
    if |bs| == 0 then 0 else BlockSize(bs[0]) + ForestSize(bs[1..])
  }

  function BlockSize(b: Block): nat
    decreases b
  {
    1 + ForestSize(b.widgets)
  }
}

=== FILE: strings.dfy ===
/** The few Python string operations the translator relies on, written out
    with the exact semantics of CPython's `str` methods and of `str(int)`,
    `"%d"` and `int(...)` on decimal text. */
module Strings {
  import opened Results

  // ---------------------------------------------------------------------
  // str.replace

  /** True when `pat` occurs in `s` starting at index `i`. */
  predicate OccursAt(s: string, pat: string, i: nat) {
    i + |pat| <= |s| && s[i..i + |pat|] == pat
  }

  /** Python's `s.replace(pat, rep)`: every occurrence of `pat`, found by a
      left-to-right scan that does not overlap a previous match, is replaced
      by `rep`. */
  function ReplaceAll(s: string, pat: string, rep: string): string
    requires |pat| > 0
    decreases |s|
  {
    if |s| < |pat| then s
    else if s[..|pat|] == pat then rep + ReplaceAll(s[|pat|..], pat, rep)
    else [s[0]] + ReplaceAll(s[1..], pat, rep)
  }

  /** A prefix free of the pattern's first character is copied unchanged
      before the scan reaches the rest. */
  lemma {:induction false} ReplaceAllSkip(s: string, pat: string, rep: string, k: nat)
    requires |pat| > 0 && k <= |s|
    requires forall i :: 0 <= i < k ==> s[i] != pat[0]
    ensures ReplaceAll(s, pat, rep) == s[..k] + ReplaceAll(s[k..], pat, rep)
    decreases k
  {
    if k > 0 {
      if |s| < |pat| {
        assert ReplaceAll(s[k..], pat, rep) == s[k..];
        assert s[..k] + s[k..] == s;
      } else {
        assert s[..|pat|] != pat by {
          assert s[..|pat|][0] == s[0];
        }
        assert ReplaceAll(s, pat, rep) == [s[0]] + ReplaceAll(s[1..], pat, rep);
        ReplaceAllSkip(s[1..], pat, rep, k - 1);
        assert s[1..][k - 1..] == s[k..];
        assert [s[0]] + s[1..][..k - 1] == s[..k];
      }
    }
  }

  /** A text with exactly one occurrence of the pattern, at `k`, gets that
      occurrence replaced and nothing else changed. */
  lemma ReplaceSingleOccurrence(s: string, pat: string, rep: string, k: nat)
    requires |pat| > 0 && k + |pat| <= |s| && s[k..k + |pat|] == pat
    requires forall i :: 0 <= i < k ==> s[i] != pat[0]
    requires forall i :: k + |pat| <= i < |s| ==> s[i] != pat[0]
    ensures ReplaceAll(s, pat, rep) == s[..k] + rep + s[k + |pat|..]
  {
    ReplaceAllSkip(s, pat, rep, k);
    var t := s[k..];
    assert t[..|pat|] == pat;
    var u := t[|pat|..];
    assert u == s[k + |pat|..];
    ReplaceAllSkip(u, pat, rep, |u|);
    assert u[..|u|] == u;
    assert u[|u|..] == [];
  }

  /** One occurrence of the pattern between two texts free of its first
      character: only that occurrence is replaced. */
  lemma ReplaceBetween(a: string, pat: string, rep: string, b: string)
    requires |pat| > 0 && pat[0] !in a && pat[0] !in b
    ensures ReplaceAll(a + pat + b, pat, rep) == a + rep + b
  {
    var s := a + pat + b;
    var k := |a|;
    assert s[..k] == a;
    assert s[k..k + |pat|] == pat;
    assert s[k + |pat|..] == b;
    forall i | 0 <= i < k ensures s[i] != pat[0] {
      assert s[i] == a[i];
    }
    forall i | k + |pat| <= i < |s| ensures s[i] != pat[0] {
      assert s[i] == b[i - k - |pat|];
    }
    ReplaceSingleOccurrence(s, pat, rep, k);
  }

  /** A pattern whose first character does not occur leaves the text as it
      is. */
  lemma ReplaceAllNoFirstChar(s: string, pat: string, rep: string)
    requires |pat| > 0 && pat[0] !in s
    ensures ReplaceAll(s, pat, rep) == s
  {
    ReplaceAllSkip(s, pat, rep, |s|);
    assert s[..|s|] == s;
  }

  /** Every character of the result comes from the input or from the
      replacement text: a replacement never invents other characters. */
  lemma {:induction false} ReplaceAllChars(s: string, pat: string, rep: string, x: char)
    requires |pat| > 0
    requires x in ReplaceAll(s, pat, rep)
    ensures x in s || x in rep
    decreases |s|
  {
    if |s| < |pat| {
    } else if s[..|pat|] == pat {
      var tail := ReplaceAll(s[|pat|..], pat, rep);
      if x !in rep {
        assert x in tail;
        ReplaceAllChars(s[|pat|..], pat, rep, x);
        assert x in s[|pat|..];
      }
    } else {
      var tail := ReplaceAll(s[1..], pat, rep);
      if x != s[0] {
        assert x in tail;
        ReplaceAllChars(s[1..], pat, rep, x);
      }
    }
  }

  /** A character in neither the input nor the replacement text is not in
      the result. */
  lemma ReplaceAllAbsent(s: string, pat: string, rep: string, x: char)
    requires |pat| > 0 && x !in s && x !in rep
    ensures x !in ReplaceAll(s, pat, rep)
  {
    if x in ReplaceAll(s, pat, rep) {
      ReplaceAllChars(s, pat, rep, x);
    }
  }

  /** Replacing one character by one character is a character-by-character
      map that keeps the length. */
  lemma {:induction false} ReplaceCharPointwise(s: string, c: char, d: char)
    ensures |ReplaceAll(s, [c], [d])| == |s|
    ensures forall i :: 0 <= i < |s| ==>
              ReplaceAll(s, [c], [d])[i] == (if s[i] == c then d else s[i])
    decreases |s|
  {
    if |s| >= 1 {
      ReplaceCharPointwise(s[1..], c, d);
      if s[..1] == [c] {
        assert s[0] == c;
      } else {
        assert s[0] != c;
      }
    }
  }

  /** After replacing a single character by text that does not contain it,
      the character no longer occurs. */
  lemma {:induction false} ReplaceCharRemoves(s: string, c: char, rep: string)
    requires c !in rep
    ensures c !in ReplaceAll(s, [c], rep)
    decreases |s|
  {
    if |s| >= 1 {
      ReplaceCharRemoves(s[1..], c, rep);
      if s[..1] != [c] {
        assert s[0] != c;
      }
    }
  }

  // ---------------------------------------------------------------------
  // MEDM to PyDM macro syntax

  /** The character-level effect of the macro rewrite. */
  function BraceChar(c: char): char {
    if c == '(' then '{' else if c == ')' then '}' else c
  }

  /** `pv.replace("(", "{").replace(")", "}")`: MEDM writes macros as
      `$(P)`, PyDM as `${P}`. The result has the same length, maps every
      character through `BraceChar`, and so contains no parenthesis. */
  function Braces(s: string): (r: string)
    ensures |r| == |s|
    ensures forall i :: 0 <= i < |s| ==> r[i] == BraceChar(s[i])
    ensures '(' !in r && ')' !in r
  {
    var t := ReplaceAll(s, "(", "{");
    ReplaceCharPointwise(s, '(', '{');
    ReplaceCharPointwise(t, ')', '}');
    var r := ReplaceAll(t, ")", "}");
    assert forall i :: 0 <= i < |r| ==> r[i] == BraceChar(s[i]);
    assert '(' !in r by {
      forall i | 0 <= i < |r| ensures r[i] != '(' {
        assert r[i] == BraceChar(s[i]);
      }
    }
    r
  }

  // ---------------------------------------------------------------------
  // Decimal text: "%d", str(int), int(text)

  predicate IsDigit(c: char) {
    '0' <= c <= '9'
  }

  predicate AllDigits(s: string) {
    forall i :: 0 <= i < |s| ==> IsDigit(s[i])
  }

  function DigitChar(d: nat): (c: char)
    requires d < 10
    ensures IsDigit(c) && c as int - '0' as int == d
  {
    ('0' as int + d) as char
  }

  /** The decimal text of a natural number, as `"%d" % n` writes it: at least
      one digit and no leading zero except for zero itself. */
  function NatToString(n: nat): (r: string)
    ensures |r| > 0 && AllDigits(r)
    ensures r[0] == '0' ==> n == 0 && r == "0"
    ensures n >= 10 ==> |r| >= 2
    decreases n
  {
    if n < 10 then [DigitChar(n)]
    else NatToString(n / 10) + [DigitChar(n % 10)]
  }

  /** The value of a string of decimal digits (the empty string reads as 0). */
  function ParseNat(s: string): nat
    requires AllDigits(s)
    decreases |s|
  {
    if |s| == 0 then 0
    else ParseNat(s[..|s| - 1]) * 10 + (s[|s| - 1] as int - '0' as int)
  }

  /** Reading back the decimal text of `n` gives `n`. */
  lemma {:induction false} NatRoundTrip(n: nat)
    ensures ParseNat(NatToString(n)) == n
    decreases n
  {
    if n >= 10 {
      var s := NatToString(n);
      NatRoundTrip(n / 10);
      assert s[..|s| - 1] == NatToString(n / 10);
    }
  }

  /** Different numbers have different decimal texts. */
  lemma NatToStringInjective(a: nat, b: nat)
    requires NatToString(a) == NatToString(b)
    ensures a == b
  {
    NatRoundTrip(a);
    NatRoundTrip(b);
  }

  /** Python's `str(i)` for an integer: a minus sign before the digits of a
      negative number. */
  function IntToString(i: int): (r: string)
    ensures i >= 0 ==> r == NatToString(i)
    ensures i < 0 ==> |r| >= 2 && r[0] == '-' && r[1..] == NatToString(-i)
  {
    if i < 0 then "-" + NatToString(-i) else NatToString(i)
  }

  /** Integer text with an optional sign, as `int(text)` accepts it without
      surrounding blanks or digit separators; `None` when it is not one. */
  function ParseInt(s: string): (r: Option<int>)
    ensures r.Some? ==> |s| > 0
    ensures r.Some? && r.value < 0 ==> s[0] == '-'
  {
    if |s| > 1 && (s[0] == '-' || s[0] == '+') && AllDigits(s[1..]) then
      var v: int := ParseNat(s[1..]);
      Some(if s[0] == '-' then -v else v)
    else if |s| > 0 && AllDigits(s) then Some(ParseNat(s))
    else None
  }

  /** The text `str(i)` writes is read back as `i`. */
  lemma IntRoundTrip(i: int)
    ensures ParseInt(IntToString(i)) == Some(i)
  {
    if i < 0 {
      NegativeRoundTrip(i);
    } else {
      var d := NatToString(i);
      ParseUnsigned(d);
      NatRoundTrip(i);
    }
  }

  lemma NegativeRoundTrip(i: int)
    requires i < 0
    ensures ParseInt(IntToString(i)) == Some(i)
  {
    var n: nat := -i;
    var d := NatToString(n);
    assert IntToString(i) == "-" + d;
    ParseSigned(d);
    NatRoundTrip(n);
    assert ParseNat(d) == n;
  }

  lemma ParseSigned(d: string)
    requires |d| > 0 && AllDigits(d)
    ensures ParseInt("-" + d) == Some(-(ParseNat(d) as int))
  {
    var s := "-" + d;
    assert s[1..] == d;
  }

  lemma ParseUnsigned(d: string)
    requires |d| > 0 && AllDigits(d)
    ensures ParseInt(d) == Some(ParseNat(d))
  {
    assert IsDigit(d[0]);
  }

  // ---------------------------------------------------------------------
  // str.startswith, str.lstrip(c)

  predicate StartsWith(s: string, prefix: string) {
    |prefix| <= |s| && s[..|prefix|] == prefix
  }

  /** The length of the leading run of `c` in `s`. */
  function LeadingRun(s: string, c: char): (k: nat)
    ensures k <= |s|
    ensures forall i :: 0 <= i < k ==> s[i] == c
    ensures k < |s| ==> s[k] != c
    decreases |s|
  {
    if |s| > 0 && s[0] == c then 1 + LeadingRun(s[1..], c) else 0
  }

  /** `s.lstrip(c)`: `s` after its leading run of `c`. */
  function LStrip(s: string, c: char): string {
    s[LeadingRun(s, c)..]
  }

  // ---------------------------------------------------------------------
  // os.path.splitext / os.path.split on POSIX paths

  /** `s.rfind(c)`: index of the last `c`, or -1. */
  function LastIndexOf(s: string, c: char): (r: int)
    ensures -1 <= r < |s|
    ensures r >= 0 ==> s[r] == c
    ensures forall j :: r < j < |s| ==> s[j] != c
    decreases |s|
  {
    if |s| == 0 then -1
    else if s[|s| - 1] == c then |s| - 1
    else LastIndexOf(s[..|s| - 1], c)
  }

  /** True when some character of `s[lo..hi]` is not a dot. */
  predicate HasNonDot(s: string, lo: int, hi: int)
    requires 0 <= lo <= hi <= |s|
  {
    exists k :: lo <= k < hi && s[k] != '.'
  }

  /** `os.path.splitext(p)[0]`: the path without its extension. The
      extension starts at the last dot after the last slash, unless only dots
      precede it in the final component (a hidden file such as `.ui`). */
  function SplitExtRoot(p: string): string {
    var sep := LastIndexOf(p, '/');
    var dot := LastIndexOf(p, '.');
    if dot > sep && HasNonDot(p, sep + 1, dot) then p[..dot] else p
  }

  /** `os.path.split(p)[-1]`: the text after the last slash. */
  function BaseName(p: string): (r: string)
    ensures '/' !in r
  {
    AfterLast(p, '/');
    p[LastIndexOf(p, '/') + 1..]
  }

  /** What follows the last `c` holds no `c`. */
  lemma AfterLast(s: string, c: char)
    ensures c !in s[LastIndexOf(s, c) + 1..]
  {
    var k := LastIndexOf(s, c) + 1;
    var t := s[k..];
    forall i | 0 <= i < |t| ensures t[i] != c {
      assert t[i] == s[k + i];
    }
  }

  /** The file name without directory and extension, as the screen title
      falls back to it. */
  function Stem(p: string): string {
    BaseName(SplitExtRoot(p))
  }

  /** `b` minus its extension is `b[..n]`: position `n` holds the last dot
      of `b`, and some character before it is not a dot. */
  predicate DropsExtension(b: string, n: nat) {
    && n < |b| && b[n] == '.'
    && (forall j :: n < j < |b| ==> b[j] != '.')
    && HasNonDot(b, 0, n)
  }

  /** The stem is a prefix of the final path component, either all of it or
      all of it before an extension. */
  lemma StemOfPath(p: string)
    ensures '/' !in Stem(p)
    ensures StartsWith(BaseName(p), Stem(p))
    ensures Stem(p) == BaseName(p) || DropsExtension(BaseName(p), |Stem(p)|)
    ensures (exists n: nat :: DropsExtension(BaseName(p), n)) ==> DropsExtension(BaseName(p), |Stem(p)|)
  {
    StemPrefix(p);
    StemDropsAnyExtension(p);
  }

  lemma StemPrefix(p: string)
    ensures '/' !in Stem(p)
    ensures StartsWith(BaseName(p), Stem(p))
    ensures Stem(p) == BaseName(p) || DropsExtension(BaseName(p), |Stem(p)|)
  {
    var sep := LastIndexOf(p, '/');
    var dot := LastIndexOf(p, '.');
    if dot > sep && HasNonDot(p, sep + 1, dot) {
      StemOfSplitPath(p, sep, dot);
      SliceStartsSlice(p, sep + 1, dot);
      StemAtLastDot(p, sep, dot);
    } else {
      StemWithoutExtension(p);
    }
  }

  /** Whenever the final component has an extension, the stem drops it. */
  lemma StemDropsAnyExtension(p: string)
    ensures (exists n: nat :: DropsExtension(BaseName(p), n)) ==> DropsExtension(BaseName(p), |Stem(p)|)
  {
    var sep := LastIndexOf(p, '/');
    var dot := LastIndexOf(p, '.');
    if dot > sep && HasNonDot(p, sep + 1, dot) {
      StemAtLastDot(p, sep, dot);
    } else {
      NoExtension(p);
    }
  }

  lemma StemAtLastDot(p: string, sep: int, dot: int)
    requires sep == LastIndexOf(p, '/') && dot == LastIndexOf(p, '.')
    requires sep < dot && HasNonDot(p, sep + 1, dot)
    ensures DropsExtension(BaseName(p), |Stem(p)|)
  {
    StemOfSplitPath(p, sep, dot);
    DropsSame(p, sep, dot, BaseName(p), Stem(p));
  }

  /** The extension `p[sep + 1..]` drops at `dot` is the one the stem
      `p[sep + 1..dot]` drops from the base name `p[sep + 1..]`. */
  lemma DropsSame(p: string, sep: int, dot: int, base: string, stem: string)
    requires -1 <= sep < dot <= |p|
    requires base == p[sep + 1..] && stem == p[sep + 1..dot]
    requires DropsExtension(p[sep + 1..], dot - sep - 1)
    ensures DropsExtension(base, |stem|)
  {
  }

  /** When `splitext` keeps the path whole, the final component has no
      extension to drop. */
  lemma NoExtension(p: string)
    requires !(LastIndexOf(p, '.') > LastIndexOf(p, '/') && HasNonDot(p, LastIndexOf(p, '/') + 1, LastIndexOf(p, '.')))
    ensures forall n: nat :: !DropsExtension(BaseName(p), n)
  {
    NoExtensionIn(p, BaseName(p), LastIndexOf(p, '/'), LastIndexOf(p, '.'));
  }

  lemma NoExtensionIn(p: string, b: string, sep: int, dot: int)
    requires -1 <= sep < |p| && -1 <= dot < |p| && b == p[sep + 1..]
    requires dot >= 0 ==> p[dot] == '.'
    requires forall j :: dot < j < |p| ==> p[j] != '.'
    requires !(dot > sep && HasNonDot(p, sep + 1, dot))
    ensures forall n: nat :: !DropsExtension(b, n)
  {
    forall n: nat | DropsExtension(b, n) ensures false {
      ExtensionDot(p, sep, dot, n);
    }
  }

  /** An extension of the final component `p[sep + 1..]` ends at the last
      dot of `p`, with some non-dot before it in that component. */
  lemma ExtensionDot(p: string, sep: int, dot: int, n: nat)
    requires -1 <= sep < |p| && -1 <= dot < |p|
    requires dot >= 0 ==> p[dot] == '.'
    requires forall j :: dot < j < |p| ==> p[j] != '.'
    requires DropsExtension(p[sep + 1..], n)
    ensures dot == sep + 1 + n && HasNonDot(p, sep + 1, dot)
  {
    var b := p[sep + 1..];
    assert p[sep + 1 + n] == b[n];
    var k :| 0 <= k < n && b[k] != '.';
    assert p[sep + 1 + k] == b[k];
  }

  lemma SliceStartsSlice(p: string, a: int, b: int)
    requires 0 <= a <= b <= |p|
    ensures StartsWith(p[a..], p[a..b])
  {
    assert p[a..][..b - a] == p[a..b];
  }

  lemma StemWithoutExtension(p: string)
    requires !(LastIndexOf(p, '.') > LastIndexOf(p, '/') && HasNonDot(p, LastIndexOf(p, '/') + 1, LastIndexOf(p, '.')))
    ensures Stem(p) == BaseName(p)
    ensures StartsWith(BaseName(p), Stem(p))
  {
    assert SplitExtRoot(p) == p;
    var b := BaseName(p);
    assert b[..|b|] == b;
  }

  lemma StemOfSplitPath(p: string, sep: int, dot: int)
    requires sep == LastIndexOf(p, '/') && dot == LastIndexOf(p, '.')
    requires sep < dot && HasNonDot(p, sep + 1, dot)
    ensures Stem(p) == p[sep + 1..dot]
    ensures BaseName(p) == p[sep + 1..]
    ensures DropsExtension(p[sep + 1..], dot - sep - 1)
  {
    var root := p[..dot];
    assert SplitExtRoot(p) == root;
    LastIndexOfPrefix(p, '/', dot);
    assert LastIndexOf(root, '/') == sep;
    assert BaseName(root) == root[sep + 1..];
    StemDropsExtension(p, sep, dot);
  }

  lemma StemDropsExtension(p: string, sep: int, dot: int)
    requires sep == LastIndexOf(p, '/') && dot == LastIndexOf(p, '.')
    requires sep < dot && HasNonDot(p, sep + 1, dot)
    ensures DropsExtension(p[sep + 1..], dot - sep - 1)
  {
    var b := p[sep + 1..];
    var n := dot - sep - 1;
    assert b[n] == p[dot];
    forall j | n < j < |b| ensures b[j] != '.' {
      assert b[j] == p[sep + 1 + j];
    }
    var k :| sep + 1 <= k < dot && p[k] != '.';
    assert b[k - sep - 1] != '.';
  }

  /** Cutting a string before a position past its last `c` keeps that
      occurrence as the last one. */
  lemma {:induction false} LastIndexOfPrefix(s: string, c: char, n: nat)
    requires LastIndexOf(s, c) < n <= |s|
    ensures LastIndexOf(s[..n], c) == LastIndexOf(s, c)
    decreases |s|
  {
    if n < |s| {
      assert s[|s| - 1] != c;
      assert s[..|s| - 1][..n] == s[..n];
      LastIndexOfPrefix(s[..|s| - 1], c, n);
    } else {
      assert s[..n] == s;
    }
  }
}

=== FILE: styles.dfy ===
/** `Widget2Pydm.write_colors_style`: a Qt style sheet giving a widget's
    foreground and background colors, and a reader that recovers both
    colors from the style sheet text. */
module Styles {
  import opened Results
  import opened Strings
  import opened Screens
  import opened Xml
  import opened Properties

  /** `"%s#%s {\n" % (class, name)`: the rule selects the one widget. */
  function Selector(cls: string, name: string): string {
    cls + "#" + name + " {\n"
  }

  /** `"  %s: rgb(%d, %d, %d);\n"`. */
  function RgbLine(property: string, c: Color): string {
    LineHead(property) + RgbBody(c)
  }

  function RgbBody(c: Color): string {
    NatToString(c.r) + ", " + NatToString(c.g) + ", " + NatToString(c.b) + ");\n"
  }

  function LineHead(property: string): string {
    "  " + property + ": rgb("
  }

  function OptionalLine(property: string, c: Option<Color>): string {
    if c.Some? then RgbLine(property, c.value) else ""
  }

  const Closing: string := "  }"

  /** The style sheet text: the selector, a `color` line when there is a
      foreground color, a `background-color` line when there is a
      background color, and the closing brace. The reader recovers both
      colors from it. */
  function StyleText(cls: string, name: string, color: Option<Color>, bg: Option<Color>): (s: string)
    ensures StartsWith(s, Selector(cls, name))
    ensures ReadStyle(cls, name, s) == Some((color, bg))
  {
    var sel := Selector(cls, name);
    var l1 := OptionalLine("color", color);
    var l2 := OptionalLine("background-color", bg);
    var s := sel + (l1 + (l2 + Closing));
    ExpectRoundTrip(sel, l1 + (l2 + Closing));
    ReadBothLines(color, bg);
    s
  }

  // ---------------------------------------------------------------------
  // Reading a style sheet back

  /** The number of leading decimal digits. */
  function Digits(s: string): (n: nat)
    ensures n <= |s|
    decreases |s|
  {
    if |s| > 0 && IsDigit(s[0]) then 1 + Digits(s[1..]) else 0
  }

  /** A leading decimal number and what follows it. */
  function ReadNat(s: string): Option<(nat, string)> {
    var k := Digits(s);
    if k == 0 then None
    else
      assert AllDigits(s[..k]) by { DigitsAreDigits(s); }
      Some((ParseNat(s[..k]), s[k..]))
  }

  /** What follows the literal `lit` at the start of `s`. */
  function Expect(s: string, lit: string): Option<string> {
    if StartsWith(s, lit) then Some(s[|lit|..]) else None
  }

  /** `r, g, b);\n` and what follows it. */
  function ReadRgb(s: string): Option<(Color, string)> {
    var (r, s1) :- ReadNat(s);
    var s2 :- Expect(s1, ", ");
    var (g, s3) :- ReadNat(s2);
    var s4 :- Expect(s3, ", ");
    var (b, s5) :- ReadNat(s4);
    var rest :- Expect(s5, ");\n");
    if r < 256 && g < 256 && b < 256 then Some((Color(r, g, b), rest)) else None
  }

  /** An optional `  property: rgb(...)` line: the color and what follows,
      or no color and `s` unchanged. */
  function ReadLine(property: string, s: string): (Option<Color>, string) {
    var head := LineHead(property);
    if StartsWith(s, head) then
      match ReadRgb(s[|head|..])
      case Some((c, rest)) => (Some(c), rest)
      case None => (None, s)
    else (None, s)
  }

  /** The foreground and background colors a style sheet for the widget
      `cls#name` gives. */
  function ReadStyle(cls: string, name: string, s: string): Option<(Option<Color>, Option<Color>)> {
    var body :- Expect(s, Selector(cls, name));
    ReadBody(body)
  }

  /** The colors the lines after the selector give. */
  function ReadBody(body: string): Option<(Option<Color>, Option<Color>)> {
    var (color, s1) := ReadLine("color", body);
    var (bg, s2) := ReadLine("background-color", s1);
    if s2 == Closing then Some((color, bg)) else None
  }

  lemma ReadBothLines(color: Option<Color>, bg: Option<Color>)
    ensures var l2 := OptionalLine("background-color", bg);
            ReadBody(OptionalLine("color", color) + (l2 + Closing)) == Some((color, bg))
  {
    var l2 := OptionalLine("background-color", bg);
    ReadOptionalLine("color", color, l2 + Closing);
    assert (l2 + Closing)[2] != LineHead("color")[2];
    ReadOptionalLine("background-color", bg, Closing);
  }

  lemma {:induction false} DigitsAreDigits(s: string)
    ensures AllDigits(s[..Digits(s)])
    decreases |s|
  {
    if |s| > 0 && IsDigit(s[0]) {
      DigitsAreDigits(s[1..]);
      assert s[..Digits(s)] == [s[0]] + s[1..][..Digits(s[1..])];
    }
  }

  lemma {:induction false} DigitsOfPrefix(d: string, rest: string)
    requires AllDigits(d)
    requires |rest| == 0 || !IsDigit(rest[0])
    ensures Digits(d + rest) == |d|
    decreases |d|
  {
    if |d| > 0 {
      assert (d + rest)[1..] == d[1..] + rest;
      DigitsOfPrefix(d[1..], rest);
    } else {
      assert d + rest == rest;
    }
  }

  lemma ReadNatRoundTrip(n: nat, rest: string)
    requires |rest| == 0 || !IsDigit(rest[0])
    ensures ReadNat(NatToString(n) + rest) == Some((n, rest))
  {
    var d := NatToString(n);
    DigitsOfPrefix(d, rest);
    assert (d + rest)[..|d|] == d;
    assert (d + rest)[|d|..] == rest;
    NatRoundTrip(n);
  }

  lemma ExpectRoundTrip(lit: string, rest: string)
    ensures Expect(lit + rest, lit) == Some(rest)
  {
    assert (lit + rest)[..|lit|] == lit;
    assert (lit + rest)[|lit|..] == rest;
  }

  lemma ReadRgbRoundTrip(c: Color, rest: string)
    ensures ReadRgb(RgbBody(c) + rest) == Some((c, rest))
  {
    var sep := ", ";
    var end := ");\n" + rest;
    var s5 := NatToString(c.b) + end;
    var s4 := s5;
    var s3 := sep + s4;
    var s2 := NatToString(c.g) + s3;
    var s1 := sep + s2;
    var s := NatToString(c.r) + s1;
    assert RgbBody(c) + rest == s;
    ReadNatRoundTrip(c.r, s1);
    ExpectRoundTrip(sep, s2);
    ReadNatRoundTrip(c.g, s3);
    ExpectRoundTrip(sep, s4);
    ReadNatRoundTrip(c.b, end);
    ExpectRoundTrip(");\n", rest);
  }

  lemma ReadOptionalLine(property: string, c: Option<Color>, rest: string)
    requires c.None? ==> |rest| < 3 || rest[2] != LineHead(property)[2]
    ensures ReadLine(property, OptionalLine(property, c) + rest) == (c, rest)
  {
    if c.Some? {
      ReadPresentLine(property, c.value, rest);
    } else {
      assert OptionalLine(property, c) + rest == rest;
      var head := LineHead(property);
      if |rest| >= |head| {
        assert rest[2] != head[2];
      }
    }
  }

  lemma ReadPresentLine(property: string, c: Color, rest: string)
    ensures ReadLine(property, RgbLine(property, c) + rest) == (Some(c), rest)
  {
    var head := LineHead(property);
    var tail := RgbBody(c) + rest;
    assert RgbLine(property, c) + rest == head + tail;
    ExpectRoundTrip(head, tail);
    ReadRgbRoundTrip(c, rest);
  }

  // ---------------------------------------------------------------------
  // The style sheet property

  /** `write_colors_style(parent, block)`: reads the widget's `class` and
      `name` attributes first, so it fails without them even when there is
      no color; writes nothing when neither color is given; otherwise a
      `styleSheet` property holding a `string` (`notr="true"`) whose text
      gives back both colors. */
  function StyleSheet(widget: Element, color: Option<Color>, bg: Option<Color>): (r: Result<seq<Element>>)
    ensures r.Failure? <==> "class" !in widget.attrs || "name" !in widget.attrs
    ensures r.Success? ==> (r.value == [] <==> color.None? && bg.None?)
    ensures r.Success? && r.value != [] ==>
              && |r.value| == 1
              && PropertyName(r.value[0]) == Some("styleSheet")
              && |r.value[0].children| == 1
              && Attribute(r.value[0].children[0], "notr") == Some("true")
              && PropertyText(r.value[0]).Some?
              && ReadStyle(widget.attrs["class"], widget.attrs["name"], PropertyText(r.value[0]).value)
                 == Some((color, bg))
  {
    if "class" !in widget.attrs || "name" !in widget.attrs then Failure("widget lacks class or name")
    else if color.None? && bg.None? then Success([])
    else
      var text := StyleText(widget.attrs["class"], widget.attrs["name"], color, bg);
      var str := OpenTag("string", "", "", map["notr" := "true"]).(text := PlainText(text));
      Success([OpenProperty("styleSheet", map[], [str])])
  }
}

=== FILE: xml.dfy ===
/** The element tree of a Qt Designer `.ui` document and the helpers of
    `PYDM_Writer` that build it (`writeOpenTag`, `writeTaggedString`,
    `writeProperty`, `writeOpenProperty`).

    ElementTree builds the tree by appending children to a parent and then
    filling them in place; since every parent only ever receives children
    at its end, in call order, building each child completely and then
    appending it gives the same tree. */
module Xml {
  import opened Results
  import Rules

  /** Element text: a plain string, or the JSON text of a rule list (the
      JSON encoding itself is not modelled). */
  datatype Content = Plain(text: string) | RulesJson(rules: seq<Rules.Rule>)

  datatype Element = Element(tag: string, attrs: map<string, string>, text: Option<Content>, children: seq<Element>)

  /** `element.attrib.get(key)`. */
  function Attribute(e: Element, key: string): Option<string> {
    if key in e.attrs then Some(e.attrs[key]) else None
  }

  /** The element `writeOpenTag` creates: attribute `class` only for a
      non-empty class, attribute `name` only for a non-empty name, then the
      extra keyword attributes. */
  function OpenTag(tag: string, cls: string, name: string, extra: map<string, string>): (e: Element)
    ensures e.tag == tag && e.text.None? && e.children == []
    ensures "class" !in extra ==> Attribute(e, "class") == (if |cls| > 0 then Some(cls) else None)
    ensures "name" !in extra ==> Attribute(e, "name") == (if |name| > 0 then Some(name) else None)
    ensures forall k :: k in extra ==> Attribute(e, k) == Some(extra[k])
  {
    // The extra attributes are set last, so they win over class and name.
    var withName := if |name| > 0 && "name" !in extra then extra["name" := name] else extra;
    var attrs := if |cls| > 0 && "class" !in extra then withName["class" := cls] else withName;
    Element(tag, attrs, None, [])
  }

  /** `writeOpenTag(parent, ...)`: refuses a missing parent; otherwise the
      parent gains the new element as its last child and is otherwise
      unchanged. */
  function WriteOpenTag(parent: Option<Element>, tag: string, cls: string, name: string, extra: map<string, string>)
    : (r: Result<Element>)
    ensures r.Failure? <==> parent.None?
    ensures r.Success? ==>
              && r.value.tag == parent.value.tag
              && r.value.attrs == parent.value.attrs
              && r.value.text == parent.value.text
              && |r.value.children| == |parent.value.children| + 1
              && r.value.children[..|parent.value.children|] == parent.value.children
              && r.value.children[|parent.value.children|] == OpenTag(tag, cls, name, extra)
  {
    match parent
    case None => Failure("writeOpenTag(): parent is None, cannot continue")
    case Some(p) => Success(p.(children := p.children + [OpenTag(tag, cls, name, extra)]))
  }

  /** `writeTaggedString(parent, tag, value)`: a leaf element whose text is
      set only when a value is given. */
  function Leaf(tag: string, value: Option<Content>): (e: Element)
    ensures e.tag == tag && e.text == value && e.attrs == map[] && e.children == []
  {
    Element(tag, map[], value, [])
  }

  /** `writeOpenProperty(parent, name, **extra)` together with the children
      written into it afterwards. */
  function OpenProperty(name: string, extra: map<string, string>, children: seq<Element>): (e: Element)
    ensures e.tag == "property" && e.children == children
    ensures "name" !in extra && |name| > 0 ==> PropertyName(e) == Some(name)
    ensures forall k :: k in extra ==> Attribute(e, k) == Some(extra[k])
  {
    OpenTag("property", "", name, extra).(children := children)
  }

  /** `writeProperty(parent, name, value, tag, **extra)`: a property element
      holding one leaf. */
  function Property(name: string, tag: string, value: Option<Content>, extra: map<string, string>): (e: Element)
    ensures e.tag == "property" && |e.children| == 1 && e.children[0].tag == tag
    ensures "name" !in extra && |name| > 0 ==> PropertyName(e) == Some(name)
    ensures PropertyValue(e) == value
    ensures forall k :: k in extra ==> Attribute(e, k) == Some(extra[k])
  {
    OpenProperty(name, extra, [Leaf(tag, value)])
  }

  // ---------------------------------------------------------------------
  // Reading properties back

  function PropertyName(e: Element): Option<string> {
    if e.tag == "property" then Attribute(e, "name") else None
  }

  /** The text of a property's single leaf. */
  function PropertyValue(e: Element): Option<Content> {
    if e.tag == "property" && |e.children| == 1 then e.children[0].text else None
  }

  /** The plain text of a property's single leaf, if it has one. */
  function PropertyText(e: Element): Option<string> {
    match PropertyValue(e)
    case Some(Plain(s)) => Some(s)
    case _ => None
  }

  /** The children of `e` that are properties named `name`. */
  function PropertiesNamed(children: seq<Element>, name: string): (r: seq<Element>)
    ensures |r| <= |children|
    ensures forall i :: 0 <= i < |r| ==> PropertyName(r[i]) == Some(name)
    decreases |children|
  {
    if |children| == 0 then []
    else (if PropertyName(children[0]) == Some(name) then [children[0]] else [])
         + PropertiesNamed(children[1..], name)
  }

  /** No child is a property named `name`. */
  predicate NoneNamed(children: seq<Element>, name: string) {
    forall i :: 0 <= i < |children| ==> PropertyName(children[i]) != Some(name)
  }

  lemma {:induction false} PropertiesNamedAppend(a: seq<Element>, b: seq<Element>, name: string)
    ensures PropertiesNamed(a + b, name) == PropertiesNamed(a, name) + PropertiesNamed(b, name)
    decreases |a|
  {
    if |a| > 0 {
      assert (a + b)[1..] == a[1..] + b;
      PropertiesNamedAppend(a[1..], b, name);
    } else {
      assert a + b == b;
    }
  }

  lemma {:induction false} PropertiesNamedNone(children: seq<Element>, name: string)
    requires NoneNamed(children, name)
    ensures |PropertiesNamed(children, name)| == 0
    decreases |children|
  {
    if |children| > 0 {
      PropertiesNamedNone(children[1..], name);
    }
  }

  /** A property named `name` between children that are not: it is the
      only one found. */
  lemma PropertiesNamedSingle(before: seq<Element>, e: Element, after: seq<Element>, name: string)
    requires NoneNamed(before, name) && NoneNamed(after, name)
    requires PropertyName(e) == Some(name)
    ensures PropertiesNamed(before + [e] + after, name) == [e]
  {
    PropertiesNamedAppend(before + [e], after, name);
    PropertiesNamedAppend(before, [e], name);
    PropertiesNamedNone(before, name);
    PropertiesNamedNone(after, name);
    assert PropertiesNamed([e], name) == [e] + PropertiesNamed([e][1..], name);
  }
}

=== FILE: zorder.dfy ===
/** The stacking-order trailer `PYDM_Writer.closeFile` writes: one `zorder`
    element per entry of `widget_stacking_info`, ordered by `order` with
    Python's stable `sorted`, so entries of equal order keep the order in
    which they were recorded. */
module ZOrder {
  import opened Results
  import opened Xml

  /** `Qt_zOrder(order, vis, text)`. */
  datatype ZEntry = ZEntry(order: int, vis: int, text: string)

  predicate Sorted(s: seq<ZEntry>) {
    forall i, j :: 0 <= i < j < |s| ==> s[i].order <= s[j].order
  }

  /** The entries with stacking order `k`, in sequence order. */
  function WithOrder(s: seq<ZEntry>, k: int): seq<ZEntry>
    decreases |s|
  {
    if |s| == 0 then []
    else WithOrder(s[..|s| - 1], k) + (if s[|s| - 1].order == k then [s[|s| - 1]] else [])
  }

  /** Inserts `x` after every entry whose order is not greater than its own. */
  function Insert(x: ZEntry, s: seq<ZEntry>): (r: seq<ZEntry>)
    ensures |r| == |s| + 1
    decreases |s|
  {
    if |s| == 0 || s[|s| - 1].order <= x.order then s + [x]
    else Insert(x, s[..|s| - 1]) + [s[|s| - 1]]
  }

  /** `sorted(widget_stacking_info, key=sorter)`: insertion sort taking the
      entries left to right. */
  function SortByOrder(s: seq<ZEntry>): (r: seq<ZEntry>)
    ensures |r| == |s|
    decreases |s|
  {
    if |s| == 0 then [] else Insert(s[|s| - 1], SortByOrder(s[..|s| - 1]))
  }

  // ---------------------------------------------------------------------
  // Insertion

  lemma {:induction false} InsertSorted(x: ZEntry, s: seq<ZEntry>)
    requires Sorted(s)
    ensures Sorted(Insert(x, s))
    ensures forall i :: 0 <= i < |Insert(x, s)| ==> Insert(x, s)[i] == x || Insert(x, s)[i] in s
    decreases |s|
  {
    if |s| == 0 || s[|s| - 1].order <= x.order {
    } else {
      var init, last := s[..|s| - 1], s[|s| - 1];
      InsertSorted(x, init);
      var t := Insert(x, init);
      forall i | 0 <= i < |t| ensures t[i].order <= last.order {
        if t[i] != x {
          var j :| 0 <= j < |init| && init[j] == t[i];
        }
      }
      forall i | 0 <= i < |t| ensures t[i] == x || t[i] in s {
        if t[i] != x {
          assert t[i] in init;
        }
      }
    }
  }

  lemma {:induction false} InsertPermutes(x: ZEntry, s: seq<ZEntry>)
    ensures multiset(Insert(x, s)) == multiset(s) + multiset{x}
    decreases |s|
  {
    if |s| == 0 || s[|s| - 1].order <= x.order {
    } else {
      var init, last := s[..|s| - 1], s[|s| - 1];
      InsertPermutes(x, init);
      assert s == init + [last];
    }
  }

  /** Insertion puts `x` after every entry of its own order. */
  lemma {:induction false} InsertKeepsOrderClass(x: ZEntry, s: seq<ZEntry>, k: int)
    ensures WithOrder(Insert(x, s), k) == WithOrder(s, k) + (if x.order == k then [x] else [])
    decreases |s|
  {
    var t := Insert(x, s);
    if |s| == 0 || s[|s| - 1].order <= x.order {
      assert t[..|t| - 1] == s;
    } else {
      var init, last := s[..|s| - 1], s[|s| - 1];
      InsertKeepsOrderClass(x, init, k);
      assert t[..|t| - 1] == Insert(x, init);
      assert t[|t| - 1] == last;
      // `last` comes after `x` in the order, so at most one of them is in class `k`.
      assert last.order == k ==> x.order != k;
    }
  }

  // ---------------------------------------------------------------------
  // The sort

  /** The result is ordered by stacking order, is a permutation of the
      input, and keeps the recorded order among entries of equal order. */
  lemma {:induction false} SortByOrderCorrect(s: seq<ZEntry>)
    ensures Sorted(SortByOrder(s))
    ensures multiset(SortByOrder(s)) == multiset(s)
    ensures forall k :: WithOrder(SortByOrder(s), k) == WithOrder(s, k)
    decreases |s|
  {
    if |s| > 0 {
      var init, last := s[..|s| - 1], s[|s| - 1];
      SortByOrderCorrect(init);
      InsertSorted(last, SortByOrder(init));
      InsertPermutes(last, SortByOrder(init));
      assert s == init + [last];
      forall k ensures WithOrder(SortByOrder(s), k) == WithOrder(s, k) {
        InsertKeepsOrderClass(last, SortByOrder(init), k);
      }
    }
  }

  // ---------------------------------------------------------------------
  // The trailer

  /** One `zorder` element per entry, holding its text, in sorted order. */
  function Trailer(entries: seq<ZEntry>): (r: seq<Element>)
    ensures |r| == |entries|
    ensures forall i :: 0 <= i < |r| ==>
              r[i].tag == "zorder" && r[i].text == Some(Plain(SortByOrder(entries)[i].text))
  {
    var sorted := SortByOrder(entries);
    seq(|sorted|, i requires 0 <= i < |sorted| => Leaf("zorder", Some(Plain(sorted[i].text))))
  }
}
